=== FILE: README.md ===
# CMIP input pipeline of ICAR, in Dafny

This project models the part of ICAR's CMIP preprocessing helpers that turns an
archive of climate-model output into the forcing data for one year:

- **Locating files.** `find_atm_file` and `find_sst_file` fill the path
  template's `_GCM_`, `_VAR_`, `_Y_`, `_EXP_` and `_ENS_` tokens in that fixed
  order, with Python's replace-all semantics. They then list the matching
  files in ascending name order.
- **Reading eagerly.** `read_nc` caps the leading (time) axis of arrays of
  rank above two at 365 × 4 = 1460 entries.
- **Loading the atmosphere.** `load_atm` loads five variables (`ta`, `hus`,
  `ua`, `va`, `zg`).
  - For each variable, each file's slab is cut to the spatial bounds. The
    first slab becomes the value, and later slabs are joined along time in
    file order.
  - A second pass runs over the file list left by the last variable
    (geopotential height). It derives the pressure field, the raw time axis
    and `ntimes`.
  - The calendar is read from the first file of that list. It is unset when
    the list is empty or the attribute is missing.
- **Loading the surface.** `load_sfc` reads terrain height and a land mask
  (1 where the land fraction is at least 0.5, else 0).
- **Bundling.** `load_data` pairs the two results.
- **Vertical coordinates.** There are four strategies, one per model family:
  - gfdl hybrid: `a + b·ps`
  - fgoals sigma: `ptop + σ·(ps − ptop)`
  - ccsm fixed levels: `(plev/ps)·ps`
  - awi: the stored pressure, returned as is

Arithmetic is over exact reals. Arrays are shape records plus nested sequences
(`Arrays.Field2/3/4`), so an array with an empty time axis still has a
trailing shape, which decides whether `np.concatenate` succeeds. Python
exceptions become `Results.Err` values, with one constructor per failure kind:

- missing file
- missing variable
- unexpected rank
- shape mismatch on concatenation
- hybrid coefficient profiles of unequal length

The project has one module per file:

- `Results`
- `Strings`: replace-all, Python's string order, insertion sort, `str` of a year
- `Arrays`
- `NetCdf`: the archive and the two readers
- `VerticalCoords`
- `Config`
- `FileLocator`
- `AtmLoader`
- `SurfaceLoader`
- `Assembler`

The filesystem wildcard expansion is a parameter `glob: string -> seq<string>`.
It lists the names that match a pattern, in any order. The archive is a map
from path to file, and each file is a map from variable name to array and
attributes. `info.read_pressure` is the family's `vcoord` function, selected
by `RunConfig.family`.

Two behaviours of the code worth noting:

- The year is written with `str(year)`, so it is not padded to four digits
  (`Strings.YearWidth`, `FileLocator.YearOnlyTemplate`).
- The code does not guarantee that every variable's time length equals
  `ntimes`, which follows the geopotential-height files only.
  `AtmLoader.LoadAtmConsistent` proves that a variable matches `ntimes`
  exactly when its files' capped lengths sum to those files' pressure
  lengths.

## Model

| member | source | states |
|---|---|---|
| Strings.ReplaceAllUnchanged | helpers/cmip/io_routines.py:51-56 | A replacement whose token does not occur leaves the template unchanged. |
| Strings.ReplaceAllSplice | helpers/cmip/io_routines.py:51-56 | `str.replace` replaces the leftmost occurrence, copies the text before it, and goes on scanning right after the replaced token. |
| Strings.SortStrings | helpers/cmip/io_routines.py:58-59 | `filelist.sort()` returns an ascending list, in Python's code-point order, that is a permutation of the match list. |
| Strings.SortedUnique | helpers/cmip/io_routines.py:58-59 | Two ascending permutations of the same names are equal, so the sorted list is fully determined. |
| Strings.StrLeTotal | helpers/cmip/io_routines.py:59 | Any two names are comparable in Python's string order, so the sort is well defined. |
| Strings.StrLeTransitive | helpers/cmip/io_routines.py:59 | Python's string order is transitive. |
| Strings.NatToString | helpers/cmip/io_routines.py:54 | `str(year)` is a non-empty string of decimal digits with no leading zero. |
| Strings.ParseNatToString | helpers/cmip/io_routines.py:54 | Reading the rendered year back gives the year, so `str` loses nothing. |
| Strings.YearWidth | helpers/cmip/io_routines.py:54 | Years 1000 to 9999 render with four digits and earlier years with fewer, since `str` does not pad. |
| FileLocator.FindAtmFile | helpers/cmip/io_routines.py:50-60 | The located list is sorted ascending and holds exactly the names matching the substituted pattern, each as often as it matched. |
| FileLocator.FindSstFile | helpers/cmip/io_routines.py:62-73 | The same holds for the sea-surface-temperature pattern. |
| FileLocator.FindAtmFileOrderFree | helpers/cmip/io_routines.py:58-60 | The result depends only on which files match, not on the order the filesystem lists them in. |
| FileLocator.AtmPatternNoTokens | helpers/cmip/io_routines.py:51-56 | A template without tokens is used verbatim. |
| FileLocator.SubstitutionOrder | helpers/cmip/io_routines.py:51-56 | For a template that is just `_GCM_`, the pattern is the model name with `_VAR_`, `_Y_`, `_EXP_` and `_ENS_` then replaced in that order, each replacement working on the previous one's output. Tokens inside the model name are therefore rewritten too. |
| FileLocator.SubstitutionOrderExample | helpers/cmip/io_routines.py:52-53 | A model name that is itself `_VAR_` becomes the variable name, because the variable replacement runs after the model one. |
| FileLocator.YearOnlyTemplate | helpers/cmip/io_routines.py:54 | A template that is only `_Y_` yields the unpadded decimal year. |
| FileLocator.SstDaily | helpers/cmip/io_routines.py:63-72 | For a template with no tokens and a single `6hrLev`, the sea-surface-temperature lookup searches the template with `day` in its place. |
| FileLocator.SstIsAtmLookup | helpers/cmip/io_routines.py:62-73 | The sea-surface-temperature lookup is the atmospheric lookup for variable `sst` whenever no `6hrLev` remains after the model and variable substitutions. |
| Arrays.Subset2 | helpers/cmip/io_routines.py:152 | `[ymin:ymax, xmin:xmax]` has shape (ymax−ymin, xmax−xmin), and sample (j, i) is the source's (ymin+j, xmin+i). |
| Arrays.Subset4 | helpers/cmip/io_routines.py:86 | `[:, :, ymin:ymax, xmin:xmax]` keeps the time and level axes and cuts the trailing two, sample by sample. |
| Arrays.Concat4 | helpers/cmip/io_routines.py:88 | `np.concatenate` on same-shaped fields adds the time lengths. The first field is the prefix and the second the suffix. |
| Arrays.Concat4Associative | helpers/cmip/io_routines.py:87-90 | Joining files one at a time gives the same array however the list is grouped. |
| Arrays.Subset4Concat | helpers/cmip/io_routines.py:86-88 | Cutting each slab and then joining equals joining and then cutting. |
| Arrays.Head4 | helpers/cmip/io_routines.py:35 | `data[:ntimes, ...]` keeps the first min(n, ntimes) steps as a prefix, with the trailing shape kept. |
| NetCdf.ReadEager | helpers/cmip/io_routines.py:31-38 | Rank and validity are kept, and rank ≤ 2 is returned whole. Rank > 2 keeps a prefix of min(n, 1460) leading entries. Bounds a field covers remain covered. |
| NetCdf.ReadEagerIdempotent | helpers/cmip/io_routines.py:33-35 | A capped array is not cut again. |
| NetCdf.ReadEagerShort | helpers/cmip/io_routines.py:33-35 | An array of at most 1460 steps is read whole. |
| NetCdf.ReadNc | helpers/cmip/io_routines.py:24-48 | A missing file or variable is an error. Otherwise the result is the capped array and the variable's attributes. |
| NetCdf.ReadRaw | helpers/cmip/models/awi.py:9 | The vertical-coordinate reader returns the stored array, or a missing-variable error. |
| VerticalCoords.Broadcast | helpers/cmip/models/gfdl.py:9-12 | `[na,:,na,na]` and `[:,na,:,:]` views combine into shape (nt, nk, ny, nx), with sample (n,k,j,i) = f(level k, ps[n,j,i]). |
| VerticalCoords.HybridPressure | helpers/cmip/models/gfdl.py:9-14 | The gfdl field has shape (nt, nlev, ny, nx), and each sample is `a[k]+b[k]·ps[n,j,i]`. |
| VerticalCoords.SigmaPressure | helpers/cmip/models/fgoals.py:9-12 | The fgoals field has shape (nt, nlev, ny, nx), and each sample is `ptop+σ[k]·(ps[n,j,i]−ptop)`. |
| VerticalCoords.FixedLevelPressure | helpers/cmip/models/ccsm.py:10-14 | Where `ps` has no zero sample, the ccsm field `(plev/ps)·ps` has shape (nt, nlev, ny, nx) and every sample at level k is `plev[k]`. |
| VerticalCoords.Pressure | helpers/cmip/models/awi.py:6-11 | Each family's field has shape (nt, nlev, ny, nx) with the family's samples, and awi returns the stored field unchanged. |
| VerticalCoords.RatioCancels | helpers/cmip/models/ccsm.py:14 | `(plev/ps)·ps = plev` for nonzero `ps`. |
| VerticalCoords.ReadHybrid | helpers/cmip/models/gfdl.py:9-12 | The gfdl reads succeed exactly when `a` and `b` are 1-d of one length and `ps` is 3-d, and give those arrays. |
| VerticalCoords.ReadSigma | helpers/cmip/models/fgoals.py:9-11 | The fgoals reads succeed exactly when `ptop` is a scalar, `lev` is 1-d and `ps` is 3-d, and give those values. |
| VerticalCoords.ReadFixedLevel | helpers/cmip/models/ccsm.py:10-12 | The ccsm reads succeed exactly when `plev` is 1-d and `ps` is 3-d, and give those arrays. |
| VerticalCoords.ReadDirect | helpers/cmip/models/awi.py:9 | The awi read succeeds exactly when `pressure` is 4-d, and gives it unchanged. |
| VerticalCoords.ReadVCoord | helpers/cmip/io_routines.py:105 | `info.read_pressure` runs the configured family's reader. It succeeds exactly when that family's inputs are present with the ranks their indexing needs. The result holds the file's own variables: gfdl `Hybrid(a, b, ps)`, fgoals `Sigma(ptop, lev, ps)`, ccsm `FixedLevel(plev, ps)`, awi the stored rank-4 `pressure`. |
| VerticalCoords.VCoordPressure | helpers/cmip/models/gfdl.py:9-14 | The call succeeds exactly when the inputs are readable. Its time length follows `ps` (or `pressure` for awi), and its level count is the length of `a`, `lev` or `plev` (the stored level axis for awi). The field is the family's formula over the file's own variables: `HybridPressure(a, b, ps)`, `SigmaPressure(ptop, lev, ps)` or `FixedLevelPressure(plev, ps)`. For awi it is the stored field element for element. |
| VerticalCoords.VCoordFrame | helpers/cmip/models/awi.py:9 | Files that agree on the family's inputs give the same pressure, so no other variable is consulted. |
| VerticalCoords.HybridLevelConstant | helpers/cmip/models/gfdl.py:14 | A gfdl level with `b[k]=0` is constant `a[k]` over time and space. |
| VerticalCoords.HybridLinear | helpers/cmip/models/gfdl.py:9-14 | Scaling `ps` by c scales `p − a[k]` by c at every sample. |
| VerticalCoords.SigmaEndpoints | helpers/cmip/models/fgoals.py:12 | σ = 0 gives `ptop`, and σ = 1 gives the surface pressure. |
| VerticalCoords.SigmaBounded | helpers/cmip/models/fgoals.py:12 | At a level with 0 ≤ σ ≤ 1, every sample whose surface pressure is at least `ptop` has pressure between `ptop` and that surface pressure. |
| VerticalCoords.FixedLevelIgnoresPs | helpers/cmip/models/ccsm.py:12-14 | With nonzero `ps`, pressure depends on the shape of `ps` only, never on its values. |
| AtmLoader.AtmKeysDistinct | helpers/cmip/io_routines.py:9-10 | The five dataset keys are distinct, so no variable overwrites another. |
| AtmLoader.VarSlab | helpers/cmip/io_routines.py:85-86 | A slab exists exactly when the file holds the variable at rank 4. Its time length is the file's capped length, its levels are the stored ones, and sample (n,k,j,i) is the stored (n,k,ymin+j,xmin+i). |
| AtmLoader.Append | helpers/cmip/io_routines.py:87-90 | The first slab initialises the value. A later slab is appended when the trailing shapes agree, and is a shape error otherwise. |
| AtmLoader.VarLoadsCons | helpers/cmip/io_routines.py:83-90 | A file list can be stacked exactly when its first file holds the variable at rank 4 with the expected level count and the rest can be stacked onto the result. |
| AtmLoader.LoadVar | helpers/cmip/io_routines.py:83-90 | Loading fails exactly when some file lacks the variable at rank 4, or its level count differs from the accumulated field's (or, with nothing accumulated, the first file's). The value is absent exactly when nothing was accumulated and the list is empty. Its time steps are the accumulated steps followed by every file's slab in list order, so its time length is the accumulated length plus the sum of the files' capped lengths. |
| AtmLoader.LoadVarSplit | helpers/cmip/io_routines.py:83-90 | Loading a list in two consecutive parts equals loading it at once. |
| AtmLoader.LoadVars | helpers/cmip/io_routines.py:81-93 | Every loaded variable is cut to the bounds, and the file list left after the outer loop is the last variable's. |
| AtmLoader.SlabStepsLength | helpers/cmip/io_routines.py:83-90 | The joined slabs of a file list are as long as the sum of the files' capped lengths. |
| AtmLoader.LoadVarsFrame | helpers/cmip/io_routines.py:81-90 | A key no listed variable writes keeps its entry, or its absence. |
| AtmLoader.LoadVarsOk | helpers/cmip/io_routines.py:81-90 | With distinct keys not yet present, the outer loop fails exactly when some variable's own file list cannot be loaded from scratch. |
| AtmLoader.AllLoadCons | helpers/cmip/io_routines.py:81-90 | Every variable of a list can be loaded exactly when the first can and every later one can. |
| AtmLoader.LoadVarsEntry | helpers/cmip/io_routines.py:81-90 | With distinct keys, each variable is present exactly when its file list is non-empty, and then holds what loading its own files gives. |
| AtmLoader.LoadVarsAll | helpers/cmip/io_routines.py:81-90 | From an empty dataset, each of the five variables is present exactly when its file list is non-empty, and then is its files' slabs in file order, with the per-file capped lengths summed. No other key is present. |
| AtmLoader.NothingLoaded | helpers/cmip/io_routines.py:81-90 | When every variable's file list is empty, the first pass leaves the dataset empty. |
| AtmLoader.FirstPass | helpers/cmip/io_routines.py:81-93 | The first pass fails exactly when some variable's located files cannot be read at rank 4 and stacked with equal level counts. Otherwise it yields fields cut to the bounds, one per variable with files and no other key, each its files' slabs in order. The file list left behind is geopotential height's. |
| AtmLoader.PressureSlab | helpers/cmip/io_routines.py:105 | A pressure slab exists exactly when the file is present and readable by its family. It has the family's pressure time length and level count, and sample (n,k,j,i) is the family's pressure at (n,k,ymin+j,xmin+i). |
| AtmLoader.PressureCovers | helpers/cmip/io_routines.py:105 | A readable file's pressure field lies around the spatial bounds, so the cut is in range. |
| AtmLoader.TimeSlab | helpers/cmip/io_routines.py:112-114 | The time coordinate must be rank 1 and is taken whole, neither subset nor capped. |
| AtmLoader.PassLoadsCons | helpers/cmip/io_routines.py:93-118 | A file list passes exactly when its first file is present, readable by the family, has a 1-d `time` and the expected level count, and the rest pass onto the result. |
| AtmLoader.DerivePass | helpers/cmip/io_routines.py:92-118 | The pass fails exactly when some file is missing, unreadable by the family, has no 1-d `time`, or has a pressure level count other than the accumulated one (or the first file's). Pressure and time are absent exactly when nothing was accumulated and the list is empty. The pressure steps are the accumulated ones followed by each file's cut pressure in file order. The time values are the accumulated ones followed by each file's `time` values in file order. After each file, `ntimes` equals pressure's time length. |
| AtmLoader.ReadCalendar | helpers/cmip/io_routines.py:138-143 | An empty list or a missing `time` variable or `calendar` attribute gives an unset calendar. A missing first file is an error, and otherwise the first file's attribute is returned. |
| AtmLoader.SecondPass | helpers/cmip/io_routines.py:92-143 | The pass over the geopotential-height list and the calendar read fail exactly when some file of the list is missing, unreadable by the family, lacks a 1-d `time`, or differs in pressure level count from the first. On success pressure and time are present exactly when the list is non-empty, pressure is each file's cut pressure and time each file's `time` values in order, `ntimes` is the summed pressure length, and the calendar is the first file's attribute. |
| AtmLoader.LoadAtm | helpers/cmip/io_routines.py:76-145 | The load fails exactly when the first pass fails for some variable's files or the second pass fails for some geopotential-height file. Every variable and the pressure field are cut to the bounds. Each variable is present exactly when its file list is non-empty, and is its files' slabs in sorted-file order. No key other than the five is present. Over the geopotential-height list, pressure and time are present exactly when it is non-empty. Pressure is each file's cut pressure and time each file's `time` values, in file order. `ntimes` is pressure's time length and the sum of per-file pressure lengths (0 for an empty list). The calendar is set exactly when the first such file's `time` variable carries the attribute, and then equals it. |
| AtmLoader.LoadAtmNoFiles | helpers/cmip/io_routines.py:76-145 | When no file matches any of the five variables, the load succeeds with no variables, no pressure or time, `ntimes` 0 and no calendar. |
| AtmLoader.LoadAtmPressureFrame | helpers/cmip/io_routines.py:82-93 | Pressure, time, `ntimes` and calendar depend only on the files matching the geopotential-height pattern. |
| AtmLoader.LoadAtmConsistent | helpers/cmip/io_routines.py:92-110 | A loaded variable's time length equals `ntimes` exactly when its files' capped lengths sum to the pressure lengths of the geopotential-height files. |
| AtmLoader.LoadAtmConsistentSharedFiles | helpers/cmip/io_routines.py:92-110 | In particular, a variable stored in the geopotential-height files whose per-file capped lengths equal the pressure lengths matches `ntimes`. |
| SurfaceLoader.Zeros | helpers/cmip/io_routines.py:157 | `np.zeros(shape)` has the given shape and is zero everywhere. |
| SurfaceLoader.MaskAssign | helpers/cmip/io_routines.py:159 | Boolean-mask assignment writes the value where the fraction reaches the threshold and leaves every other cell as it was. |
| SurfaceLoader.LandMask | helpers/cmip/io_routines.py:157-159 | The mask has the fraction's shape. Each cell is 1 exactly when the fraction is ≥ 0.5 and 0 exactly when it is < 0.5. |
| SurfaceLoader.LandMaskMonotone | helpers/cmip/io_routines.py:159 | A larger land fraction never turns a land cell into sea. |
| SurfaceLoader.LandMaskThreshold | helpers/cmip/io_routines.py:159 | The boundary value 0.5 maps to land, and anything below it to sea. |
| SurfaceLoader.Read2 | helpers/cmip/io_routines.py:152 | A static field is read when present at rank 2 and cut to the bounds sample by sample. A missing file is an error. |
| SurfaceLoader.LoadSfc | helpers/cmip/io_routines.py:147-160 | The load succeeds exactly when `orog` and `sftlf` are present at rank 2. The height is the cut `orog`, and the mask has the same shape and is 1/0 by the cut `sftlf` against 0.5. |
| Assembler.LoadData | helpers/cmip/io_routines.py:162-166 | The load succeeds exactly when both loads succeed. The atmospheric error comes first, and the result pairs the two datasets unchanged. |
| Assembler.LoadDataSameGrid | helpers/cmip/io_routines.py:162-166 | The surface fields, every atmospheric variable and pressure share one horizontal grid. |

## Left out

- File access (netCDF4, `mygis`) and `glob` are foreign I/O. The archive is a map argument, and `glob` is a function argument that lists matches in any order.
- `mygis.read_nc` and `mygis.read_attr` are not part of this model. The vertical-coordinate readers are modelled as returning the stored array uncapped (`NetCdf.ReadRaw`). The calendar read is modelled as a lookup of the `calendar` attribute of `time`.
- The `returnNCvar` deferred-handle mode and `proj` handling of `read_nc` are resource plumbing with no decision logic.
- `print`, `sys.stdout.flush`, the `Bunch` container, and the commented-out `psl`, `clw`, `cli` and SST code have no effect on the results.
- Floating point is not modelled: rounding in `(plev/ps)·ps`, NaN or infinity when `ps` is 0, and masked or missing-value samples. Arithmetic is over reals.
- VerticalCoords.ReadVCoord: a zero `ps` in a ccsm file is excluded by a precondition (`PsNonZero`) instead of yielding NaN (`(plev/0)·0`).
- VerticalCoords.ReadVCoord: gfdl coefficient profiles of different lengths are an error (`LevelMismatch`). numpy's broadcasting of a length-1 profile against a longer one is not modelled.
- Arrays of rank above four are not modelled.
- AtmLoader.LoadAtm: out-of-range or reversed spatial bounds are excluded by a precondition (`Ready`: every spatial field covers the bounds). numpy's silent clipping of slices is not modelled. `Ready` asks this of every file in the archive, and for ccsm a nonzero `ps` in every file, not only of the files the run locates.
- SurfaceLoader.LoadSfc: `orog` and `sftlf` must be rank 2, and another rank is an `UnexpectedRank` error. numpy would instead slice the two leading axes of a higher-rank array.
- AtmLoader.VarSlab: a variable that is not rank 4 is an `UnexpectedRank` error. numpy would raise on fewer axes and slice the wrong axes on more.
- AtmLoader.TimeSlab: a `time` variable that is not rank 1 is an `UnexpectedRank` error. numpy concatenation of higher-rank time arrays is not modelled.
- VerticalCoords.ReadVCoord: fgoals' `ptop` must be a scalar. A one-element array, which numpy would broadcast, is an error here.
- AtmLoader.LoadAtm: the year enters only through the file-name template, and the rest of the time query is unused by the code.

=== FILE: arrays.dfy ===
/** In-memory arrays as shape records plus nested sequences of exact reals.
    A field stores its trailing extents explicitly so that an array whose time
    axis is empty still has a shape, as a numpy array does. The time axis is
    the outer sequence: `nt == |steps|`. */
module Arrays {

  /** A horizontal slice indexed `[j][i]` (y, then x). */
  type Grid = seq<seq<real>>

  predicate IsGrid(g: Grid, ny: nat, nx: nat) {
    |g| == ny && forall j :: 0 <= j < |g| ==> |g[j]| == nx
  }

  /** A level column of grids indexed `[k][j][i]`. */
  predicate IsColumn(c: seq<Grid>, nk: nat, ny: nat, nx: nat) {
    |c| == nk && forall k :: 0 <= k < |c| ==> IsGrid(c[k], ny, nx)
  }

  /** A static (y, x) field. */
  datatype Field2 = Field2(ny: nat, nx: nat, rows: Grid) {
    predicate Valid() {
      IsGrid(rows, ny, nx)
    }
  }

  /** A (time, y, x) field such as surface pressure. */
  datatype Field3 = Field3(ny: nat, nx: nat, steps: seq<Grid>) {
    predicate Valid() {
      forall n :: 0 <= n < |steps| ==> IsGrid(steps[n], ny, nx)
    }
  }

  /** A (time, level, y, x) field. */
  datatype Field4 = Field4(nk: nat, ny: nat, nx: nat, steps: seq<seq<Grid>>) {
    predicate Valid() {
      forall n :: 0 <= n < |steps| ==> IsColumn(steps[n], nk, ny, nx)
    }

    /** `(n, k, j, i)` indexes a sample of the field. */
    predicate Has(n: int, k: int, j: int, i: int) {
      0 <= n < |steps| && 0 <= k < nk && 0 <= j < ny && 0 <= i < nx
    }

    /** Same trailing shape (level, y, x), so the two can be joined in time. */
    predicate Stackable(other: Field4) {
      nk == other.nk && ny == other.ny && nx == other.nx
    }
  }

  /** The spatial subset `[ymin:ymax, xmin:xmax]` applied to the two trailing
      dimensions of every field. */
  datatype Bounds = Bounds(ymin: nat, ymax: nat, xmin: nat, xmax: nat) {
    /** Both ranges are ordered and lie inside an `ny` by `nx` grid. */
    predicate Within(ny: nat, nx: nat) {
      ymin <= ymax <= ny && xmin <= xmax <= nx
    }

    function Height(): (r: nat)
      requires ymin <= ymax
    {
      ymax - ymin
    }

    function Width(): (r: nat)
      requires xmin <= xmax
    {
      xmax - xmin
    }
  }

  function Min(a: nat, b: nat): (r: nat) {
    if a <= b then a else b
  }

  // ---------------------------------------------------------------------------
  // Spatial subsetting
  // ---------------------------------------------------------------------------

  /** `g[ymin:ymax, xmin:xmax]`. */
  function SubGrid(g: Grid, ny: nat, nx: nat, b: Bounds): (r: Grid)
    requires IsGrid(g, ny, nx) && b.Within(ny, nx)
    ensures IsGrid(r, b.Height(), b.Width())
    ensures forall j, i :: 0 <= j < b.Height() && 0 <= i < b.Width() ==>
              r[j][i] == g[b.ymin + j][b.xmin + i]
  {
    seq(b.ymax - b.ymin, j requires 0 <= j < b.ymax - b.ymin => g[b.ymin + j][b.xmin..b.xmax])
  }

  function Subset2(f: Field2, b: Bounds): (r: Field2)
    requires f.Valid() && b.Within(f.ny, f.nx)
    ensures r.Valid() && r.ny == b.Height() && r.nx == b.Width()
    ensures forall j, i :: 0 <= j < r.ny && 0 <= i < r.nx ==>
              r.rows[j][i] == f.rows[b.ymin + j][b.xmin + i]
  {
    Field2(b.Height(), b.Width(), SubGrid(f.rows, f.ny, f.nx, b))
  }

  /** `f[:, :, ymin:ymax, xmin:xmax]`: the time and level axes are kept whole. */
  function Subset4(f: Field4, b: Bounds): (r: Field4)
    requires f.Valid() && b.Within(f.ny, f.nx)
    ensures r.Valid()
    ensures |r.steps| == |f.steps| && r.nk == f.nk
    ensures r.ny == b.Height() && r.nx == b.Width()
    ensures forall n, k, j, i :: 0 <= n < |r.steps| && 0 <= k < r.nk && 0 <= j < r.ny && 0 <= i < r.nx ==>
              r.steps[n][k][j][i] == f.steps[n][k][b.ymin + j][b.xmin + i]
  {
    Field4(f.nk, b.Height(), b.Width(),
      seq(|f.steps|, n requires 0 <= n < |f.steps| =>
        seq(f.nk, k requires 0 <= k < f.nk => SubGrid(f.steps[n][k], f.ny, f.nx, b))))
  }

  // ---------------------------------------------------------------------------
  // Time-axis operations
  // ---------------------------------------------------------------------------

  /** `np.concatenate([a, b])` along the time axis. */
  function Concat4(a: Field4, b: Field4): (r: Field4)
    requires a.Valid() && b.Valid() && a.Stackable(b)
    ensures r.Valid() && r.Stackable(a)
    ensures |r.steps| == |a.steps| + |b.steps|
    ensures r.steps[..|a.steps|] == a.steps && r.steps[|a.steps|..] == b.steps
  {
    Field4(a.nk, a.ny, a.nx, a.steps + b.steps)
  }

  /** `f[:m, ...]` on a (time, y, x) field. */
  function Head3(f: Field3, m: nat): (r: Field3)
    requires f.Valid()
    ensures r.Valid() && r.ny == f.ny && r.nx == f.nx
    ensures |r.steps| == Min(|f.steps|, m) && r.steps <= f.steps
  {
    Field3(f.ny, f.nx, f.steps[..Min(|f.steps|, m)])
  }

  /** `f[:m, ...]` on a (time, level, y, x) field. */
  function Head4(f: Field4, m: nat): (r: Field4)
    requires f.Valid()
    ensures r.Valid() && r.Stackable(f)
    ensures |r.steps| == Min(|f.steps|, m) && r.steps <= f.steps
  {
    Field4(f.nk, f.ny, f.nx, f.steps[..Min(|f.steps|, m)])
  }

  /** Concatenation is associative, so joining files one at a time gives the
      same array however the file list is split. */
  lemma Concat4Associative(a: Field4, b: Field4, c: Field4)
    requires a.Valid() && b.Valid() && c.Valid() && a.Stackable(b) && b.Stackable(c)
    ensures Concat4(Concat4(a, b), c) == Concat4(a, Concat4(b, c))
  {
    assert (a.steps + b.steps) + c.steps == a.steps + (b.steps + c.steps);
  }

  /** Subsetting commutes with concatenation: cutting each file's slab and
      joining the cuts equals cutting the joined array. */
  lemma {:induction false} Subset4Concat(a: Field4, b: Field4, bd: Bounds)
    requires a.Valid() && b.Valid() && a.Stackable(b) && bd.Within(a.ny, a.nx)
    ensures Subset4(Concat4(a, b), bd) == Concat4(Subset4(a, bd), Subset4(b, bd))
  {
    var lhs := Subset4(Concat4(a, b), bd);
    var rhs := Concat4(Subset4(a, bd), Subset4(b, bd));
    var sa := Subset4(a, bd).steps;
    assert |lhs.steps| == |rhs.steps|;
    forall n | 0 <= n < |lhs.steps|
      ensures lhs.steps[n] == rhs.steps[n]
    {
      if n < |a.steps| {
        assert rhs.steps[n] == sa[n];
      } else {
        assert rhs.steps[n] == Subset4(b, bd).steps[n - |a.steps|];
      }
    }
  }

  /** Two well-formed fields with the same shape and the same samples are
      the same field. */
  lemma {:induction false} Field4Equal(p: Field4, q: Field4)
    requires p.Valid() && q.Valid() && p.Stackable(q) && |p.steps| == |q.steps|
    requires forall n, k, j, i :: p.Has(n, k, j, i) ==> p.steps[n][k][j][i] == q.steps[n][k][j][i]
    ensures p == q
  {
    forall n | 0 <= n < |p.steps|
      ensures p.steps[n] == q.steps[n]
    {
      forall k | 0 <= k < p.nk
        ensures p.steps[n][k] == q.steps[n][k]
      {
        forall j | 0 <= j < p.ny
          ensures p.steps[n][k][j] == q.steps[n][k][j]
        {
          assert forall i :: 0 <= i < p.nx ==> p.Has(n, k, j, i);
        }
      }
    }
  }
}

=== FILE: assembler.dfy ===
/** The top-level load (`load_data`): the atmospheric dataset, then the
    surface dataset, bundled together. The atmosphere is loaded first, so its
    error is the one reported when both would fail. */
module Assembler {
  import opened Results
  import opened Arrays
  import opened NetCdf
  import opened Config
  import opened AtmLoader
  import opened SurfaceLoader

  datatype Forcing = Forcing(sfc: SfcDataset, atm: AtmDataset)

  /** Everything both loaders need of the archive. */
  predicate Loadable(store: Store, cfg: RunConfig) {
    && Ready(store, cfg)
    && Ordered(cfg.bounds)
    && VarCovers(store, "orog", cfg.bounds)
    && VarCovers(store, "sftlf", cfg.bounds)
  }

  /** `load_data(time, info)`. */
  function LoadData(store: Store, cfg: RunConfig, year: nat, glob: string -> seq<string>): (r: Result<Forcing>)
    requires Loadable(store, cfg)
    ensures r.Ok? <==> LoadAtm(store, cfg, year, glob).Ok? && LoadSfc(store, cfg).Ok?
    ensures LoadAtm(store, cfg, year, glob).Err? ==> r == Err(LoadAtm(store, cfg, year, glob).error)
    ensures LoadAtm(store, cfg, year, glob).Ok? && LoadSfc(store, cfg).Err? ==> r == Err(LoadSfc(store, cfg).error)
    ensures r.Ok? ==> r.value.atm == LoadAtm(store, cfg, year, glob).value && r.value.sfc == LoadSfc(store, cfg).value
  {
    var atm :- LoadAtm(store, cfg, year, glob);
    var sfc :- LoadSfc(store, cfg);
    Ok(Forcing(sfc, atm))
  }

  /** The surface fields share the horizontal grid of every atmospheric
      variable and of pressure: all are cut to the same bounds. */
  lemma LoadDataSameGrid(store: Store, cfg: RunConfig, year: nat, glob: string -> seq<string>, key: string)
    requires Loadable(store, cfg)
    requires LoadData(store, cfg, year, glob).Ok?
    ensures var f := LoadData(store, cfg, year, glob).value;
            && (key in f.atm.vars ==> f.atm.vars[key].ny == f.sfc.hgt.ny && f.atm.vars[key].nx == f.sfc.hgt.nx)
            && (f.atm.p.Some? ==> f.atm.p.value.ny == f.sfc.hgt.ny && f.atm.p.value.nx == f.sfc.hgt.nx)
            && f.sfc.xland.ny == f.sfc.hgt.ny && f.sfc.xland.nx == f.sfc.hgt.nx
  {
  }
}

=== FILE: atm_loader.dfy ===
/** The atmospheric loader (`load_atm`). For each of the five variables it
    locates the year's files, reads each one eagerly, cuts the spatial subset
    and joins the slabs along time in file order; the first slab becomes the
    variable's value. A second pass over the file list left behind by the last
    variable (geopotential height) derives pressure through the run's
    vertical-coordinate strategy, the raw time axis and `ntimes`; finally the
    calendar is read from the first file of that list, if any. */
module AtmLoader {
  import opened Results
  import opened Arrays
  import opened NetCdf
  import opened VerticalCoords
  import opened Config
  import opened FileLocator

  /** A variable's key in the dataset and its name in the archive. */
  datatype AtmVar = AtmVar(key: string, name: string)

  /** Temperature, specific humidity, the two wind components and
      geopotential height, in the order they are loaded. */
  const AtmVars: seq<AtmVar> := [
    AtmVar("t", "ta"), AtmVar("qv", "hus"), AtmVar("u", "ua"), AtmVar("v", "va"), AtmVar("z", "zg")
  ]

  datatype AtmDataset = AtmDataset(
    vars: map<string, Field4>,     // by dataset key; absent when no file matched
    p: Option<Field4>,             // pressure, absent when no file matched
    time: Option<seq<real>>,       // raw time coordinate, not subset
    ntimes: nat,                   // time length of the pressure field
    calendar: Option<string>       // the time variable's calendar attribute
  )

  /** What a load needs of the archive and the configuration: arrays are
      regular, every spatial field lies around the subset bounds, and a ccsm
      archive has no zero surface pressure. */
  predicate Ready(store: Store, cfg: RunConfig) {
    && ValidStore(store)
    && (forall k :: 0 <= k < |AtmVars| ==> VarCovers(store, AtmVars[k].name, cfg.bounds))
    && VarCovers(store, "ps", cfg.bounds)
    && VarCovers(store, "pressure", cfg.bounds)
    && (cfg.family.Ccsm? ==> forall path :: path in store ==> PsNonZero(store[path]))
  }

  /** A slab or an accumulated field: regular and already cut to the bounds. */
  predicate Cut(f: Field4, b: Bounds)
    requires b.ymin <= b.ymax && b.xmin <= b.xmax
  {
    f.Valid() && f.ny == b.Height() && f.nx == b.Width()
  }

  predicate CutOpt(acc: Option<Field4>, b: Bounds)
    requires b.ymin <= b.ymax && b.xmin <= b.xmax
  {
    acc.Some? ==> Cut(acc.value, b)
  }

  predicate Ordered(b: Bounds) {
    b.ymin <= b.ymax && b.xmin <= b.xmax
  }

  function Steps(acc: Option<Field4>): (r: seq<seq<Grid>>) {
    if acc.Some? then acc.value.steps else []
  }

  // ---------------------------------------------------------------------------
  // Reference lengths, computed from the stored arrays
  // ---------------------------------------------------------------------------

  /** Time steps one file contributes to a variable: its stored length, capped
      by the eager reader. */
  function StoredLength(store: Store, path: string, name: string): (r: nat) {
    if path in store && name in store[path] && store[path][name].data.Rank4?
    then Min(|store[path][name].data.f4.steps|, MaxTimes)
    else 0
  }

  function SumStored(store: Store, name: string, files: seq<string>): (total: nat)
    decreases |files|
  {
    if |files| == 0 then 0 else StoredLength(store, files[0], name) + SumStored(store, name, files[1..])
  }

  /** Time steps one file contributes to pressure. */
  function StoredPressureLength(store: Store, family: Family, path: string): (r: nat) {
    if path in store then PressureLength(family, store[path]) else 0
  }

  function SumPressure(store: Store, family: Family, files: seq<string>): (total: nat)
    decreases |files|
  {
    if |files| == 0 then 0
    else StoredPressureLength(store, family, files[0]) + SumPressure(store, family, files[1..])
  }

  /** Time values one file contributes. */
  function StoredTimeLength(store: Store, path: string): (r: nat) {
    if path in store && "time" in store[path] && store[path]["time"].data.Rank1?
    then |store[path]["time"].data.v|
    else 0
  }

  function SumTimes(store: Store, files: seq<string>): (total: nat)
    decreases |files|
  {
    if |files| == 0 then 0 else StoredTimeLength(store, files[0]) + SumTimes(store, files[1..])
  }

  // ---------------------------------------------------------------------------
  // First pass: one variable over its files
  // ---------------------------------------------------------------------------

  /** `read_nc(path, name).data[:, :, ymin:ymax, xmin:xmax]`. */
  function VarSlab(store: Store, b: Bounds, name: string, path: string): (r: Result<Field4>)
    requires ValidStore(store) && VarCovers(store, name, b)
    ensures r.Ok? <==> path in store && name in store[path] && store[path][name].data.Rank4?
    ensures r.Ok? ==> Ordered(b) && Cut(r.value, b)
    ensures r.Ok? ==> |r.value.steps| == StoredLength(store, path, name)
    ensures r.Ok? ==> r.value.nk == store[path][name].data.f4.nk
    ensures r.Ok? ==> forall n, k, j, i :: r.value.Has(n, k, j, i) ==>
              r.value.steps[n][k][j][i] == store[path][name].data.f4.steps[n][k][b.ymin + j][b.xmin + i]
  {
    var nc :- ReadNc(store, path, name);
    if nc.data.Rank4? then
      var stored := store[path][name].data.f4;
      assert nc.data.f4.steps <= stored.steps;
      assert forall n :: 0 <= n < |nc.data.f4.steps| ==> nc.data.f4.steps[n] == stored.steps[n];
      Ok(Subset4(nc.data.f4, b))
    else Err(UnexpectedRank(path, name, nc.data.Rank()))
  }

  /** The first slab initialises; later slabs are concatenated in time. */
  function Append(acc: Option<Field4>, slab: Field4, path: string, name: string): (r: Result<Field4>)
    requires (acc.Some? ==> acc.value.Valid()) && slab.Valid()
    ensures acc.None? ==> r == Ok(slab)
    ensures acc.Some? ==> (r.Ok? <==> acc.value.Stackable(slab))
    ensures r.Ok? ==> r.value.Valid() && r.value.Stackable(slab)
    ensures r.Ok? ==> r.value.steps == Steps(acc) + slab.steps
  {
    match acc
    case None => Ok(slab)
    case Some(a) => if a.Stackable(slab) then Ok(Concat4(a, slab)) else Err(ShapeMismatch(path, name))
  }

  /** The file is present and holds the variable as a 4-d field. */
  predicate HasVar(store: Store, path: string, name: string) {
    path in store && name in store[path] && store[path][name].data.Rank4?
  }

  /** Level count of a variable as stored in one file. */
  function StoredLevels(store: Store, path: string, name: string): (levels: nat) {
    if HasVar(store, path, name) then store[path][name].data.f4.nk else 0
  }

  /** The level count every slab must match: the accumulated field's when there
      is one, otherwise the first file's. */
  function TargetLevels(store: Store, name: string, files: seq<string>, acc: Option<Field4>): (levels: nat) {
    if acc.Some? then acc.value.nk
    else if |files| > 0 then StoredLevels(store, files[0], name)
    else 0
  }

  /** Every listed file can be read and stacked onto `acc`. */
  predicate VarLoads(store: Store, name: string, files: seq<string>, acc: Option<Field4>) {
    forall i :: 0 <= i < |files| ==>
      HasVar(store, files[i], name) && StoredLevels(store, files[i], name) == TargetLevels(store, name, files, acc)
  }

  /** Peeling the first file off a loadable list leaves a list loadable onto
      any accumulator with the same level count. */
  lemma VarLoadsCons(store: Store, name: string, files: seq<string>, acc: Option<Field4>, next: Field4)
    requires |files| > 0 && next.nk == TargetLevels(store, name, files, acc)
    ensures VarLoads(store, name, files, acc) <==>
              && HasVar(store, files[0], name)
              && StoredLevels(store, files[0], name) == next.nk
              && VarLoads(store, name, files[1..], Some(next))
  {
    if HasVar(store, files[0], name) && StoredLevels(store, files[0], name) == next.nk
       && VarLoads(store, name, files[1..], Some(next)) {
      forall i | 0 <= i < |files|
        ensures HasVar(store, files[i], name) && StoredLevels(store, files[i], name) == TargetLevels(store, name, files, acc)
      {
        if i > 0 { assert files[i] == files[1..][i - 1]; }
      }
    }
  }

  /** The inner loop of the first pass for one variable, from accumulated
      value `acc`. */
  function LoadVar(store: Store, b: Bounds, name: string, files: seq<string>, acc: Option<Field4>): (r: Result<Option<Field4>>)
    requires ValidStore(store) && VarCovers(store, name, b) && Ordered(b) && CutOpt(acc, b)
    ensures r.Ok? <==> VarLoads(store, name, files, acc)
    ensures r.Ok? ==> CutOpt(r.value, b)
    ensures r.Ok? ==> (r.value.None? <==> acc.None? && |files| == 0)
    ensures r.Ok? ==> Steps(r.value) == Steps(acc) + SlabSteps(store, b, name, files)
    decreases |files|
  {
    if |files| == 0 then Ok(acc)
    else
      var slab :- VarSlab(store, b, name, files[0]);
      var next :- Append(acc, slab, files[0], name);
      VarLoadsCons(store, name, files, acc, next);
      SlabStepsCons(store, b, name, files, Steps(acc), slab);
      LoadVar(store, b, name, files[1..], Some(next))
  }

  /** The time steps of every file's slab, in file order. */
  function SlabSteps(store: Store, b: Bounds, name: string, files: seq<string>): (steps: seq<seq<Grid>>)
    requires ValidStore(store) && VarCovers(store, name, b)
    decreases |files|
  {
    if |files| == 0 then []
    else
      var rest := SlabSteps(store, b, name, files[1..]);
      match VarSlab(store, b, name, files[0])
      case Ok(s) => s.steps + rest
      case Err(_) => rest
  }

  /** A readable first file puts its slab ahead of the others'. */
  lemma SlabStepsCons(store: Store, b: Bounds, name: string, files: seq<string>, before: seq<seq<Grid>>, slab: Field4)
    requires ValidStore(store) && VarCovers(store, name, b)
    requires |files| > 0 && VarSlab(store, b, name, files[0]) == Ok(slab)
    ensures before + SlabSteps(store, b, name, files) == (before + slab.steps) + SlabSteps(store, b, name, files[1..])
  {
  }

  /** Joined, the files' slabs are as long as the sum of the files' capped
      lengths; a file without the variable at rank 4 contributes nothing. */
  lemma {:induction false} SlabStepsLength(store: Store, b: Bounds, name: string, files: seq<string>)
    requires ValidStore(store) && VarCovers(store, name, b)
    ensures |SlabSteps(store, b, name, files)| == SumStored(store, name, files)
    decreases |files|
  {
    if |files| > 0 {
      SlabStepsLength(store, b, name, files[1..]);
    }
  }

  /** Loading a list in two parts, the second from the result of the first,
      equals loading it at once: joining two years' files one after the other
      gives the same array as joining the combined list. */
  lemma {:induction false} LoadVarSplit(store: Store, b: Bounds, name: string, xs: seq<string>, ys: seq<string>, acc: Option<Field4>)
    requires ValidStore(store) && VarCovers(store, name, b) && Ordered(b) && CutOpt(acc, b)
    ensures LoadVar(store, b, name, xs + ys, acc) ==
              match LoadVar(store, b, name, xs, acc)
              case Ok(mid) => LoadVar(store, b, name, ys, mid)
              case Err(e) => Err(e)
    decreases |xs|
  {
    if |xs| == 0 {
      assert xs + ys == ys;
    } else {
      assert (xs + ys)[0] == xs[0];
      assert (xs + ys)[1..] == xs[1..] + ys;
      var s := VarSlab(store, b, name, xs[0]);
      if s.Ok? {
        var n := Append(acc, s.value, xs[0], name);
        if n.Ok? {
          LoadVarSplit(store, b, name, xs[1..], ys, Some(n.value));
        }
      }
    }
  }

  /** The outer loop of the first pass. It also returns the file list of the
      last variable, which the second pass reuses. */
  function LoadVars(store: Store, b: Bounds, find: string -> seq<string>,
                    vars: seq<AtmVar>, out: map<string, Field4>, last: seq<string>): (r: Result<(map<string, Field4>, seq<string>)>)
    requires ValidStore(store) && Ordered(b)
    requires forall k :: 0 <= k < |vars| ==> VarCovers(store, vars[k].name, b)
    requires forall s :: s in out ==> Cut(out[s], b)
    ensures r.Ok? ==> forall s :: s in r.value.0 ==> Cut(r.value.0[s], b)
    ensures r.Ok? ==> r.value.1 == if |vars| == 0 then last else find(vars[|vars| - 1].name)
    decreases |vars|
  {
    if |vars| == 0 then Ok((out, last))
    else
      var v := vars[0];
      var files := find(v.name);
      var acc := if v.key in out then Some(out[v.key]) else None;
      var loaded :- LoadVar(store, b, v.name, files, acc);
      var out' := if loaded.Some? then out[v.key := loaded.value] else out;
      assert |vars| > 1 ==> vars[1..][|vars| - 2] == vars[|vars| - 1];
      LoadVars(store, b, find, vars[1..], out', files)
  }

  /** No variable of `vars` has the key `s`. */
  predicate Fresh(vars: seq<AtmVar>, s: string) {
    forall k :: 0 <= k < |vars| ==> vars[k].key != s
  }

  /** Keys no variable of the list writes keep their entry (or absence). */
  lemma {:induction false} LoadVarsFrame(store: Store, b: Bounds, find: string -> seq<string>,
                                         vars: seq<AtmVar>, out: map<string, Field4>, last: seq<string>, s: string)
    requires ValidStore(store) && Ordered(b)
    requires forall k :: 0 <= k < |vars| ==> VarCovers(store, vars[k].name, b)
    requires forall s :: s in out ==> Cut(out[s], b)
    requires Fresh(vars, s)
    requires LoadVars(store, b, find, vars, out, last).Ok?
    ensures var m := LoadVars(store, b, find, vars, out, last).value.0;
            (s in m <==> s in out) && (s in out ==> m[s] == out[s])
    decreases |vars|
  {
    if |vars| > 0 {
      LoadVarsUnfold(store, b, find, vars, out, last);
      var v := vars[0];
      var files := find(v.name);
      var acc := if v.key in out then Some(out[v.key]) else None;
      var loaded := LoadVar(store, b, v.name, files, acc).value;
      var out' := if loaded.Some? then out[v.key := loaded.value] else out;
      assert v.key != s;
      LoadVarsFrame(store, b, find, vars[1..], out', files, s);
    }
  }

  /** One step of the outer loop: the first variable continues from its
      entry in `out`, if any. */
  lemma LoadVarsUnfold(store: Store, b: Bounds, find: string -> seq<string>,
                       vars: seq<AtmVar>, out: map<string, Field4>, last: seq<string>)
    requires ValidStore(store) && Ordered(b)
    requires forall k :: 0 <= k < |vars| ==> VarCovers(store, vars[k].name, b)
    requires forall s :: s in out ==> Cut(out[s], b)
    requires |vars| > 0
    requires LoadVars(store, b, find, vars, out, last).Ok?
    ensures var files := find(vars[0].name);
            var acc := if vars[0].key in out then Some(out[vars[0].key]) else None;
            var r := LoadVar(store, b, vars[0].name, files, acc);
            && r.Ok?
            && var out' := if r.value.Some? then out[vars[0].key := r.value.value] else out;
               && (forall s :: s in out' ==> Cut(out'[s], b))
               && LoadVars(store, b, find, vars, out, last) == LoadVars(store, b, find, vars[1..], out', files)
  {
  }

  /** With distinct keys, variable `k` is present exactly when its file list
      is non-empty, and then holds what loading its own files gives. */
  lemma {:induction false} LoadVarsEntry(store: Store, b: Bounds, find: string -> seq<string>,
                                         vars: seq<AtmVar>, out: map<string, Field4>, last: seq<string>, k: nat)
    requires ValidStore(store) && Ordered(b)
    requires forall k :: 0 <= k < |vars| ==> VarCovers(store, vars[k].name, b)
    requires forall s :: s in out ==> Cut(out[s], b)
    requires forall k, l :: 0 <= k < l < |vars| ==> vars[k].key != vars[l].key
    requires forall k :: 0 <= k < |vars| ==> vars[k].key !in out
    requires k < |vars| && LoadVars(store, b, find, vars, out, last).Ok?
    ensures var m := LoadVars(store, b, find, vars, out, last).value.0;
            var files := find(vars[k].name);
            && (vars[k].key in m <==> |files| > 0)
            && (vars[k].key in m ==> LoadVar(store, b, vars[k].name, files, None) == Ok(Some(m[vars[k].key])))
    decreases k
  {
    var v := vars[0];
    var files := find(v.name);
    LoadVarsUnfold(store, b, find, vars, out, last);
    var loaded := LoadVar(store, b, v.name, files, None).value;
    var out' := if loaded.Some? then out[v.key := loaded.value] else out;
    var tail := vars[1..];
    if k == 0 {
      LoadVarsFrame(store, b, find, tail, out', files, v.key);
    } else {
      assert tail[k - 1] == vars[k];
      assert forall k :: 0 <= k < |tail| ==> tail[k].key != v.key && tail[k].key !in out;
      LoadVarsEntry(store, b, find, tail, out', files, k - 1);
    }
  }

  lemma AllLoadCons(store: Store, find: string -> seq<string>, vars: seq<AtmVar>)
    requires |vars| > 0
    ensures AllLoad(store, find, vars) <==>
              VarLoads(store, vars[0].name, find(vars[0].name), None) && AllLoad(store, find, vars[1..])
  {
    assert forall k :: 0 <= k < |vars| - 1 ==> vars[1..][k] == vars[k + 1];
  }

  /** After the first variable is stored, the remaining keys are still distinct
      and still absent. */
  lemma KeysTail(vars: seq<AtmVar>, out: map<string, Field4>, out': map<string, Field4>)
    requires |vars| > 0
    requires forall k, l :: 0 <= k < l < |vars| ==> vars[k].key != vars[l].key
    requires forall k :: 0 <= k < |vars| ==> vars[k].key !in out
    requires forall s :: s in out' ==> s in out || s == vars[0].key
    ensures forall k, l :: 0 <= k < l < |vars| - 1 ==> vars[1..][k].key != vars[1..][l].key
    ensures forall k :: 0 <= k < |vars| - 1 ==> vars[1..][k].key !in out'
  {
    assert forall k :: 0 <= k < |vars| - 1 ==> vars[1..][k] == vars[k + 1];
  }

  /** Every variable of the list can load its own files from scratch. */
  predicate AllLoad(store: Store, find: string -> seq<string>, vars: seq<AtmVar>) {
    forall k :: 0 <= k < |vars| ==> VarLoads(store, vars[k].name, find(vars[k].name), None)
  }

  /** With distinct keys, the first pass fails exactly when some variable's
      file list cannot be loaded. */
  lemma {:induction false} LoadVarsOk(store: Store, b: Bounds, find: string -> seq<string>,
                                      vars: seq<AtmVar>, out: map<string, Field4>, last: seq<string>)
    requires ValidStore(store) && Ordered(b)
    requires forall k :: 0 <= k < |vars| ==> VarCovers(store, vars[k].name, b)
    requires forall s :: s in out ==> Cut(out[s], b)
    requires forall k, l :: 0 <= k < l < |vars| ==> vars[k].key != vars[l].key
    requires forall k :: 0 <= k < |vars| ==> vars[k].key !in out
    ensures LoadVars(store, b, find, vars, out, last).Ok? <==> AllLoad(store, find, vars)
    decreases |vars|
  {
    if |vars| > 0 {
      var v := vars[0];
      var files := find(v.name);
      var r := LoadVar(store, b, v.name, files, None);
      var tail := vars[1..];
      AllLoadCons(store, find, vars);
      if r.Ok? {
        var out' := if r.value.Some? then out[v.key := r.value.value] else out;
        assert LoadVars(store, b, find, vars, out, last) == LoadVars(store, b, find, tail, out', files);
        KeysTail(vars, out, out');
        LoadVarsOk(store, b, find, tail, out', files);
      }
    }
  }

  // ---------------------------------------------------------------------------
  // Second pass: pressure, time and ntimes over the last variable's files
  // ---------------------------------------------------------------------------

  /** `info.read_pressure(path)[:, :, ymin:ymax, xmin:xmax]`. */
  function PressureSlab(store: Store, cfg: RunConfig, path: string): (r: Result<Field4>)
    requires Ready(store, cfg)
    ensures r.Ok? <==> path in store && Readable(cfg.family, store[path])
    ensures r.Ok? ==> Ordered(cfg.bounds) && Cut(r.value, cfg.bounds)
    ensures r.Ok? ==> |r.value.steps| == StoredPressureLength(store, cfg.family, path)
    ensures r.Ok? ==> r.value.nk == LevelCount(cfg.family, store[path])
    ensures r.Ok? ==> var p := VCoordPressure(cfg.family, path, store[path]).value;
              && r.value.nk == p.nk && cfg.bounds.Within(p.ny, p.nx)
              && forall n, k, j, i :: r.value.Has(n, k, j, i) ==>
                   r.value.steps[n][k][j][i] == p.steps[n][k][cfg.bounds.ymin + j][cfg.bounds.xmin + i]
  {
    if path !in store then Err(MissingFile(path))
    else
      var file := store[path];
      assert cfg.family.Ccsm? ==> PsNonZero(file);
      var p :- VCoordPressure(cfg.family, path, file);
      PressureCovers(store, cfg, path);
      Ok(Subset4(p, cfg.bounds))
  }

  /** A readable file's pressure lies around the bounds, as its `ps` (or
      awi's stored pressure) does. */
  lemma PressureCovers(store: Store, cfg: RunConfig, path: string)
    requires Ready(store, cfg) && path in store && Readable(cfg.family, store[path])
    ensures cfg.bounds.Within(VCoordPressure(cfg.family, path, store[path]).value.ny,
                              VCoordPressure(cfg.family, path, store[path]).value.nx)
  {
    var file := store[path];
    if cfg.family.Awi? {
      assert file["pressure"].data.Covers(cfg.bounds);
    } else {
      assert file["ps"].data.Covers(cfg.bounds);
    }
  }

  /** `read_nc(path, "time").data[:]`: a rank-1 array, never capped. */
  function TimeSlab(store: Store, path: string): (r: Result<seq<real>>)
    requires ValidStore(store)
    ensures r.Ok? <==> path in store && "time" in store[path] && store[path]["time"].data.Rank1?
    ensures r.Ok? ==> r.value == store[path]["time"].data.v
  {
    var nc :- ReadNc(store, path, "time");
    if nc.data.Rank1? then Ok(nc.data.v) else Err(UnexpectedRank(path, "time", nc.data.Rank()))
  }

  datatype PassState = PassState(p: Option<Field4>, time: Option<seq<real>>, ntimes: nat)

  /** The accumulated time values; none before the first file. */
  function Times(time: Option<seq<real>>): (r: seq<real>) {
    if time.Some? then time.value else []
  }

  function TimeLength(time: Option<seq<real>>): (r: nat) {
    |Times(time)|
  }

  /** Every readable file's cut pressure steps, in file order. */
  function PressureSteps(store: Store, cfg: RunConfig, files: seq<string>): (steps: seq<seq<Grid>>)
    requires Ready(store, cfg)
    decreases |files|
  {
    if |files| == 0 then []
    else
      var rest := PressureSteps(store, cfg, files[1..]);
      match PressureSlab(store, cfg, files[0])
      case Ok(s) => s.steps + rest
      case Err(_) => rest
  }

  /** Every file's rank-1 time values, in file order. */
  function TimeValues(store: Store, files: seq<string>): (values: seq<real>)
    requires ValidStore(store)
    decreases |files|
  {
    if |files| == 0 then []
    else
      var rest := TimeValues(store, files[1..]);
      match TimeSlab(store, files[0])
      case Ok(t) => t + rest
      case Err(_) => rest
  }

  /** A readable first file puts its pressure slab ahead of the others'. */
  lemma PressureStepsCons(store: Store, cfg: RunConfig, files: seq<string>, before: seq<seq<Grid>>, slab: Field4)
    requires Ready(store, cfg)
    requires |files| > 0 && PressureSlab(store, cfg, files[0]) == Ok(slab)
    ensures before + PressureSteps(store, cfg, files) == (before + slab.steps) + PressureSteps(store, cfg, files[1..])
  {
  }

  /** A first file with a time axis puts its values ahead of the others'. */
  lemma TimeValuesCons(store: Store, files: seq<string>, before: seq<real>, t: seq<real>)
    requires ValidStore(store)
    requires |files| > 0 && TimeSlab(store, files[0]) == Ok(t)
    ensures before + TimeValues(store, files) == (before + t) + TimeValues(store, files[1..])
  {
  }

  /** A pressure file the second pass can use: present, readable by the model
      family's strategy, and with a one-dimensional time axis. */
  predicate PassFileOk(store: Store, cfg: RunConfig, path: string) {
    && path in store
    && Readable(cfg.family, store[path])
    && "time" in store[path] && store[path]["time"].data.Rank1?
  }

  /** Level count of the pressure derived from one file. */
  function PassLevels(store: Store, cfg: RunConfig, path: string): (levels: nat) {
    if path in store then LevelCount(cfg.family, store[path]) else 0
  }

  /** The level count every pressure slab must match. */
  function PassTarget(store: Store, cfg: RunConfig, files: seq<string>, p: Option<Field4>): (levels: nat) {
    if p.Some? then p.value.nk
    else if |files| > 0 then PassLevels(store, cfg, files[0])
    else 0
  }

  /** Every listed file can be read and stacked onto the accumulated pressure. */
  predicate PassLoads(store: Store, cfg: RunConfig, files: seq<string>, p: Option<Field4>) {
    forall i :: 0 <= i < |files| ==>
      PassFileOk(store, cfg, files[i]) && PassLevels(store, cfg, files[i]) == PassTarget(store, cfg, files, p)
  }

  lemma PassLoadsCons(store: Store, cfg: RunConfig, files: seq<string>, p: Option<Field4>, next: Field4)
    requires |files| > 0 && next.nk == PassTarget(store, cfg, files, p)
    ensures PassLoads(store, cfg, files, p) <==>
              && PassFileOk(store, cfg, files[0])
              && PassLevels(store, cfg, files[0]) == next.nk
              && PassLoads(store, cfg, files[1..], Some(next))
  {
    if PassFileOk(store, cfg, files[0]) && PassLevels(store, cfg, files[0]) == next.nk
       && PassLoads(store, cfg, files[1..], Some(next)) {
      forall i | 0 <= i < |files|
        ensures PassFileOk(store, cfg, files[i]) && PassLevels(store, cfg, files[i]) == PassTarget(store, cfg, files, p)
      {
        if i > 0 { assert files[i] == files[1..][i - 1]; }
      }
    }
  }

  /** The second loop, from state `st`. After each file `ntimes` is the time
      length of the accumulated pressure. */
  function DerivePass(store: Store, cfg: RunConfig, files: seq<string>, st: PassState): (r: Result<PassState>)
    requires Ready(store, cfg) && Ordered(cfg.bounds) && CutOpt(st.p, cfg.bounds)
    ensures r.Ok? <==> PassLoads(store, cfg, files, st.p)
    ensures r.Ok? ==> CutOpt(r.value.p, cfg.bounds)
    ensures r.Ok? ==> (r.value.p.None? <==> st.p.None? && |files| == 0)
    ensures r.Ok? ==> (r.value.time.None? <==> st.time.None? && |files| == 0)
    ensures r.Ok? ==> |Steps(r.value.p)| == |Steps(st.p)| + SumPressure(store, cfg.family, files)
    ensures r.Ok? ==> TimeLength(r.value.time) == TimeLength(st.time) + SumTimes(store, files)
    ensures r.Ok? && |files| > 0 ==> r.value.ntimes == |Steps(r.value.p)|
    ensures r.Ok? && |files| == 0 ==> r.value.ntimes == st.ntimes
    ensures r.Ok? ==> Steps(r.value.p) == Steps(st.p) + PressureSteps(store, cfg, files)
    ensures r.Ok? ==> Times(r.value.time) == Times(st.time) + TimeValues(store, files)
    decreases |files|
  {
    if |files| == 0 then Ok(st)
    else
      var path := files[0];
      var slab :- PressureSlab(store, cfg, path);
      var p :- Append(st.p, slab, path, "p");
      var t :- TimeSlab(store, path);
      var time := if st.time.Some? then st.time.value + t else t;
      PassLoadsCons(store, cfg, files, st.p, p);
      PressureStepsCons(store, cfg, files, Steps(st.p), slab);
      TimeValuesCons(store, files, Times(st.time), t);
      DerivePass(store, cfg, files[1..], PassState(Some(p), Some(time), |p.steps|))
  }

  /** The calendar attribute of `time` in the first file; unset when the list
      is empty (an IndexError) or the variable or attribute is missing (a
      KeyError). Opening a missing file is not caught. */
  function ReadCalendar(store: Store, files: seq<string>): (r: Result<Option<string>>)
    ensures r.Err? <==> |files| > 0 && files[0] !in store
    ensures r.Ok? && r.value.Some? <==>
              |files| > 0 && files[0] in store && "time" in store[files[0]] && "calendar" in store[files[0]]["time"].atts
    ensures r.Ok? && r.value.Some? ==> r.value.value == store[files[0]]["time"].atts["calendar"]
  {
    if |files| == 0 then Ok(None)
    else if files[0] !in store then Err(MissingFile(files[0]))
    else if "time" !in store[files[0]] then Ok(None)
    else
      var atts := store[files[0]]["time"].atts;
      Ok(if "calendar" in atts then Some(atts["calendar"]) else None)
  }

  // ---------------------------------------------------------------------------
  // The whole load
  // ---------------------------------------------------------------------------

  lemma AtmKeysDistinct()
    ensures forall k, l :: 0 <= k < l < |AtmVars| ==> AtmVars[k].key != AtmVars[l].key
  {
  }

  /** The per-variable file lookup of the first pass. */
  function AtmFinder(cfg: RunConfig, year: nat, glob: string -> seq<string>): (r: string -> seq<string>) {
    name => FindAtmFile(cfg, year, name, glob)
  }

  /** The file list of the pass that derives pressure, time and `ntimes`:
      that of geopotential height, the last variable loaded. */
  function PressureFiles(cfg: RunConfig, year: nat, glob: string -> seq<string>): (r: seq<string>) {
    FindAtmFile(cfg, year, AtmVars[|AtmVars| - 1].name, glob)
  }

  /** Each of the five variables is present in `m` exactly when its file list
      is non-empty, and then is its files' slabs joined in file order, as
      long as the sum of the files' capped lengths. */
  predicate VarsLoaded(store: Store, b: Bounds, find: string -> seq<string>, m: map<string, Field4>)
    requires ValidStore(store)
    requires forall k :: 0 <= k < |AtmVars| ==> VarCovers(store, AtmVars[k].name, b)
  {
    && (forall k :: 0 <= k < |AtmVars| ==>
          && (AtmVars[k].key in m <==> |find(AtmVars[k].name)| > 0)
          && (AtmVars[k].key in m ==>
                && m[AtmVars[k].key].steps == SlabSteps(store, b, AtmVars[k].name, find(AtmVars[k].name))
                && |m[AtmVars[k].key].steps| == SumStored(store, AtmVars[k].name, find(AtmVars[k].name))))
    && forall s :: s in m ==> !Fresh(AtmVars, s)
  }

  /** Loading the five variables from an empty dataset loads each from its
      own files alone. */
  lemma LoadVarsAll(store: Store, b: Bounds, find: string -> seq<string>)
    requires ValidStore(store) && Ordered(b)
    requires forall k :: 0 <= k < |AtmVars| ==> VarCovers(store, AtmVars[k].name, b)
    requires LoadVars(store, b, find, AtmVars, map[], []).Ok?
    ensures VarsLoaded(store, b, find, LoadVars(store, b, find, AtmVars, map[], []).value.0)
  {
    AtmKeysDistinct();
    var m := LoadVars(store, b, find, AtmVars, map[], []).value.0;
    forall k | 0 <= k < |AtmVars|
      ensures AtmVars[k].key in m <==> |find(AtmVars[k].name)| > 0
      ensures AtmVars[k].key in m ==>
              && m[AtmVars[k].key].steps == SlabSteps(store, b, AtmVars[k].name, find(AtmVars[k].name))
              && |m[AtmVars[k].key].steps| == SumStored(store, AtmVars[k].name, find(AtmVars[k].name))
    {
      LoadVarsEntry(store, b, find, AtmVars, map[], [], k);
      var files := find(AtmVars[k].name);
      SlabStepsLength(store, b, AtmVars[k].name, files);
      assert [] + SlabSteps(store, b, AtmVars[k].name, files) == SlabSteps(store, b, AtmVars[k].name, files);
    }
    forall s | s in m ensures !Fresh(AtmVars, s) {
      if Fresh(AtmVars, s) {
        LoadVarsFrame(store, b, find, AtmVars, map[], [], s);
      }
    }
  }

  /** The first pass over all five variables, each loaded from its own sorted
      file list. The list left behind is geopotential height's. */
  function FirstPass(store: Store, cfg: RunConfig, year: nat, glob: string -> seq<string>): (r: Result<(map<string, Field4>, seq<string>)>)
    requires Ready(store, cfg) && Ordered(cfg.bounds)
    ensures r.Ok? <==> AllLoad(store, AtmFinder(cfg, year, glob), AtmVars)
    ensures r.Ok? ==> forall s :: s in r.value.0 ==> Cut(r.value.0[s], cfg.bounds)
    ensures r.Ok? ==> r.value.1 == PressureFiles(cfg, year, glob)
    ensures r.Ok? ==> VarsLoaded(store, cfg.bounds, AtmFinder(cfg, year, glob), r.value.0)
  {
    var r := LoadVars(store, cfg.bounds, AtmFinder(cfg, year, glob), AtmVars, map[], []);
    AtmKeysDistinct();
    LoadVarsOk(store, cfg.bounds, AtmFinder(cfg, year, glob), AtmVars, map[], []);
    if r.Ok? then
      LoadVarsAll(store, cfg.bounds, AtmFinder(cfg, year, glob));
      r
    else r
  }

  /** What the second pass promises for the zg file list: pressure and time
      present exactly when the list is non-empty, `ntimes` the pressure
      field's time length and the sum of the files' pressure lengths, time
      the files' time axes in order, and the calendar read from the first
      file. */
  predicate PassDerived(store: Store, cfg: RunConfig, files: seq<string>, st: PassState, calendar: Option<string>)
    requires Ready(store, cfg) && Ordered(cfg.bounds)
  {
    && CutOpt(st.p, cfg.bounds)
    && (st.p.None? <==> |files| == 0)
    && (st.time.None? <==> |files| == 0)
    && st.ntimes == |Steps(st.p)|
    && st.ntimes == SumPressure(store, cfg.family, files)
    && TimeLength(st.time) == SumTimes(store, files)
    && (calendar.Some? <==>
          |files| > 0 && files[0] in store && "time" in store[files[0]] && "calendar" in store[files[0]]["time"].atts)
    && (calendar.Some? ==> calendar.value == store[files[0]]["time"].atts["calendar"])
    && Steps(st.p) == PressureSteps(store, cfg, files)
    && Times(st.time) == TimeValues(store, files)
  }

  /** The pass over the zg files and the calendar read. It fails exactly when
      some file cannot give pressure and time. */
  function SecondPass(store: Store, cfg: RunConfig, files: seq<string>): (r: Result<(PassState, Option<string>)>)
    requires Ready(store, cfg) && Ordered(cfg.bounds)
    ensures r.Ok? <==> PassLoads(store, cfg, files, None)
    ensures r.Ok? ==> PassDerived(store, cfg, files, r.value.0, r.value.1)
  {
    var st :- DerivePass(store, cfg, files, PassState(None, None, 0));
    match ReadCalendar(store, files)
    case Ok(calendar) => Ok((st, calendar))
    case Err(e) => Err(e)
  }

  /** What a successful load promises: the five variables as the first pass
      builds them, and the second pass's results over the zg files. */
  predicate AtmLoaded(store: Store, cfg: RunConfig, year: nat, glob: string -> seq<string>, d: AtmDataset)
    requires Ready(store, cfg) && Ordered(cfg.bounds)
  {
    && (forall s :: s in d.vars ==> Cut(d.vars[s], cfg.bounds))
    && VarsLoaded(store, cfg.bounds, AtmFinder(cfg, year, glob), d.vars)
    && PassDerived(store, cfg, PressureFiles(cfg, year, glob), PassState(d.p, d.time, d.ntimes), d.calendar)
  }

  /** `load_atm(time, info)`.
      - Variables: each is present exactly when its file list is non-empty,
        and then is its files' slabs in file order.
      - Pressure, time and `ntimes` come from the second pass over the
        geopotential-height list: pressure and time are present exactly when
        that list is non-empty, `ntimes` is the pressure field's time length
        and the sum of the files' pressure lengths (zero for an empty list),
        and time sums the files' time lengths.
      - The calendar is the attribute on the first listed file's `time`
        variable, unset when the list is empty or the attribute missing.
      - It fails exactly when some variable's files cannot be read and stacked,
        or some zg file cannot give pressure and time. */
  function LoadAtm(store: Store, cfg: RunConfig, year: nat, glob: string -> seq<string>): (r: Result<AtmDataset>)
    requires Ready(store, cfg) && Ordered(cfg.bounds)
    ensures r.Ok? <==> AllLoad(store, AtmFinder(cfg, year, glob), AtmVars)
                       && PassLoads(store, cfg, PressureFiles(cfg, year, glob), None)
    ensures r.Ok? ==> AtmLoaded(store, cfg, year, glob, r.value)
  {
    var loaded :- FirstPass(store, cfg, year, glob);
    var pass :- SecondPass(store, cfg, loaded.1);
    Ok(AtmDataset(loaded.0, pass.0.p, pass.0.time, pass.0.ntimes, pass.1))
  }

  /** A first-pass result over empty file lists holds no entry. */
  lemma NothingLoaded(store: Store, b: Bounds, find: string -> seq<string>, m: map<string, Field4>)
    requires ValidStore(store)
    requires forall k :: 0 <= k < |AtmVars| ==> VarCovers(store, AtmVars[k].name, b)
    requires forall k :: 0 <= k < |AtmVars| ==> find(AtmVars[k].name) == []
    requires VarsLoaded(store, b, find, m)
    ensures m == map[]
  {
    assert forall k :: 0 <= k < |AtmVars| ==> AtmVars[k].key !in m;
    assert forall s :: s !in m;
  }

  /** When no file matches any variable, the load succeeds with nothing:
      no variables, no pressure or time, zero steps and no calendar. */
  lemma LoadAtmNoFiles(store: Store, cfg: RunConfig, year: nat, glob: string -> seq<string>)
    requires Ready(store, cfg) && Ordered(cfg.bounds)
    requires forall k :: 0 <= k < |AtmVars| ==> FindAtmFile(cfg, year, AtmVars[k].name, glob) == []
    ensures LoadAtm(store, cfg, year, glob) == Ok(AtmDataset(map[], None, None, 0, None))
  {
    var find := AtmFinder(cfg, year, glob);
    assert forall k :: 0 <= k < |AtmVars| ==> find(AtmVars[k].name) == [];
    assert PressureFiles(cfg, year, glob) == [];
    assert AllLoad(store, find, AtmVars);
    var d := LoadAtm(store, cfg, year, glob).value;
    NothingLoaded(store, cfg.bounds, find, d.vars);
  }

  /** Pressure, time, `ntimes` and calendar depend only on which files match
      the geopotential-height pattern, whatever the other variables match. */
  lemma LoadAtmPressureFrame(store: Store, cfg: RunConfig, year: nat, g1: string -> seq<string>, g2: string -> seq<string>)
    requires Ready(store, cfg) && Ordered(cfg.bounds)
    requires LoadAtm(store, cfg, year, g1).Ok? && LoadAtm(store, cfg, year, g2).Ok?
    requires var pat := AtmPattern(cfg, year, AtmVars[|AtmVars| - 1].name);
             multiset(g1(pat)) == multiset(g2(pat))
    ensures var d1 := LoadAtm(store, cfg, year, g1).value;
            var d2 := LoadAtm(store, cfg, year, g2).value;
            d1.p == d2.p && d1.time == d2.time && d1.ntimes == d2.ntimes && d1.calendar == d2.calendar
  {
    FindAtmFileOrderFree(cfg, year, AtmVars[|AtmVars| - 1].name, g1, g2);
  }

  lemma {:induction false} SumsAgree(store: Store, cfg: RunConfig, name: string, files: seq<string>)
    requires forall path :: path in files ==> StoredLength(store, path, name) == StoredPressureLength(store, cfg.family, path)
    ensures SumStored(store, name, files) == SumPressure(store, cfg.family, files)
    decreases |files|
  {
    if |files| > 0 {
      assert files[0] in files;
      assert forall path :: path in files[1..] ==> path in files;
      SumsAgree(store, cfg, name, files[1..]);
    }
  }

  /** The dataset's invariant that a variable's time length equals `ntimes`
      holds exactly when its files' capped lengths sum to the pressure
      lengths of the geopotential-height files. It is not guaranteed
      otherwise: `ntimes` follows the geopotential-height list only. */
  lemma LoadAtmConsistent(store: Store, cfg: RunConfig, year: nat, glob: string -> seq<string>, k: nat)
    requires Ready(store, cfg) && Ordered(cfg.bounds) && k < |AtmVars|
    requires LoadAtm(store, cfg, year, glob).Ok?
    ensures var ds := LoadAtm(store, cfg, year, glob).value;
            AtmVars[k].key in ds.vars ==>
              (|ds.vars[AtmVars[k].key].steps| == ds.ntimes <==>
                 SumStored(store, AtmVars[k].name, FindAtmFile(cfg, year, AtmVars[k].name, glob))
                   == SumPressure(store, cfg.family, PressureFiles(cfg, year, glob)))
  {
    assert AtmFinder(cfg, year, glob)(AtmVars[k].name) == FindAtmFile(cfg, year, AtmVars[k].name, glob);
  }

  /** In particular, a variable stored in the geopotential-height files with,
      file by file, a capped length equal to the pressure length matches
      `ntimes`. */
  lemma LoadAtmConsistentSharedFiles(store: Store, cfg: RunConfig, year: nat, glob: string -> seq<string>, k: nat)
    requires Ready(store, cfg) && Ordered(cfg.bounds) && k < |AtmVars|
    requires LoadAtm(store, cfg, year, glob).Ok?
    requires FindAtmFile(cfg, year, AtmVars[k].name, glob) == PressureFiles(cfg, year, glob)
    requires forall path :: path in PressureFiles(cfg, year, glob) ==>
               StoredLength(store, path, AtmVars[k].name) == StoredPressureLength(store, cfg.family, path)
    ensures var ds := LoadAtm(store, cfg, year, glob).value;
            AtmVars[k].key in ds.vars ==> |ds.vars[AtmVars[k].key].steps| == ds.ntimes
  {
    SumsAgree(store, cfg, AtmVars[k].name, PressureFiles(cfg, year, glob));
    LoadAtmConsistent(store, cfg, year, glob, k);
  }
}

=== FILE: config.dfy ===
/** The per-run configuration the loaders read (the `info` object). */
module Config {
  import opened Arrays
  import opened VerticalCoords

  datatype RunConfig = RunConfig(
    atmdir: string,       // directory of the atmospheric files
    atmfile: string,      // file-name template with substitution tokens
    gcmName: string,      // replaces _GCM_
    experiment: string,   // replaces _EXP_
    ensemble: string,     // replaces _ENS_
    orogFile: string,     // the file holding orography and land fraction
    bounds: Bounds,       // the spatial subset
    family: Family        // which vertical-coordinate strategy reads pressure
  )
}

=== FILE: locator.dfy ===
/** The file locator: expand the path template for a variable and a year and
    list the matching files in ascending name order, which the loaders rely on
    to concatenate in time order. Filesystem wildcard expansion is a parameter
    `glob` that lists the names matching a pattern in any order. */
module FileLocator {
  import opened Strings
  import opened Config

  const GcmToken: string := "_GCM_"
  const VarToken: string := "_VAR_"
  const YearToken: string := "_Y_"
  const ExpToken: string := "_EXP_"
  const EnsToken: string := "_ENS_"

  /** The sub-daily frequency the sea-surface-temperature lookup swaps for
      the daily one. */
  const SubDaily: string := "6hrLev"
  const Daily: string := "day"

  /** The template `atmdir + atmfile` with every token replaced, in the order
      model, variable, year, experiment, ensemble. */
  function AtmPattern(cfg: RunConfig, year: nat, varname: string): (pattern: string) {
    var s0 := cfg.atmdir + cfg.atmfile;
    var s1 := ReplaceAll(s0, GcmToken, cfg.gcmName);
    var s2 := ReplaceAll(s1, VarToken, varname);
    var s3 := ReplaceAll(s2, YearToken, NatToString(year));
    var s4 := ReplaceAll(s3, ExpToken, cfg.experiment);
    ReplaceAll(s4, EnsToken, cfg.ensemble)
  }

  /** The same template for sea-surface temperature: variable `sst`, and the
      sub-daily frequency replaced by the daily one right after the variable. */
  function SstPattern(cfg: RunConfig, year: nat): (pattern: string) {
    var s0 := cfg.atmdir + cfg.atmfile;
    var s1 := ReplaceAll(s0, GcmToken, cfg.gcmName);
    var s2 := ReplaceAll(s1, VarToken, "sst");
    var s3 := ReplaceAll(s2, SubDaily, Daily);
    var s4 := ReplaceAll(s3, YearToken, NatToString(year));
    var s5 := ReplaceAll(s4, ExpToken, cfg.experiment);
    ReplaceAll(s5, EnsToken, cfg.ensemble)
  }

  /** `find_atm_file`: the names matching the variable's pattern, sorted. */
  function FindAtmFile(cfg: RunConfig, year: nat, varname: string, glob: string -> seq<string>): (r: seq<string>)
    ensures Sorted(r)
    ensures multiset(r) == multiset(glob(AtmPattern(cfg, year, varname)))
  {
    SortStrings(glob(AtmPattern(cfg, year, varname)))
  }

  /** `find_sst_file`: the names matching the sea-surface-temperature
      pattern, sorted. */
  function FindSstFile(cfg: RunConfig, year: nat, glob: string -> seq<string>): (r: seq<string>)
    ensures Sorted(r)
    ensures multiset(r) == multiset(glob(SstPattern(cfg, year)))
  {
    SortStrings(glob(SstPattern(cfg, year)))
  }

  /** The listing order of the matches does not matter, only which names
      matched: the located list is determined by the match multiset. */
  lemma FindAtmFileOrderFree(cfg: RunConfig, year: nat, varname: string, g1: string -> seq<string>, g2: string -> seq<string>)
    requires multiset(g1(AtmPattern(cfg, year, varname))) == multiset(g2(AtmPattern(cfg, year, varname)))
    ensures FindAtmFile(cfg, year, varname, g1) == FindAtmFile(cfg, year, varname, g2)
  {
    SortedUnique(FindAtmFile(cfg, year, varname, g1), FindAtmFile(cfg, year, varname, g2));
  }

  /** A template without any token is used verbatim. */
  lemma AtmPatternNoTokens(cfg: RunConfig, year: nat, varname: string)
    requires var t := cfg.atmdir + cfg.atmfile;
      Free(t, GcmToken) && Free(t, VarToken) && Free(t, YearToken) && Free(t, ExpToken) && Free(t, EnsToken)
    ensures AtmPattern(cfg, year, varname) == cfg.atmdir + cfg.atmfile
  {
    var t := cfg.atmdir + cfg.atmfile;
    ReplaceAllUnchanged(t, GcmToken, cfg.gcmName);
    ReplaceAllUnchanged(t, VarToken, varname);
    ReplaceAllUnchanged(t, YearToken, NatToString(year));
    ReplaceAllUnchanged(t, ExpToken, cfg.experiment);
    ReplaceAllUnchanged(t, EnsToken, cfg.ensemble);
  }

  /** The sea-surface-temperature lookup is the atmospheric lookup for the
      variable `sst` whenever no sub-daily marker is left after the model and
      variable substitutions. */
  lemma SstIsAtmLookup(cfg: RunConfig, year: nat, glob: string -> seq<string>)
    requires Free(ReplaceAll(ReplaceAll(cfg.atmdir + cfg.atmfile, GcmToken, cfg.gcmName), VarToken, "sst"), SubDaily)
    ensures SstPattern(cfg, year) == AtmPattern(cfg, year, "sst")
    ensures FindSstFile(cfg, year, glob) == FindAtmFile(cfg, year, "sst", glob)
  {
    var s2 := ReplaceAll(ReplaceAll(cfg.atmdir + cfg.atmfile, GcmToken, cfg.gcmName), VarToken, "sst");
    ReplaceAllUnchanged(s2, SubDaily, Daily);
  }

  /** The sea-surface-temperature lookup swaps the sub-daily frequency for the
      daily one: a token-free template with one `6hrLev` is searched with `day`
      in its place. */
  lemma SstDaily(cfg: RunConfig, year: nat, a: string, c: string, glob: string -> seq<string>)
    requires cfg.atmdir + cfg.atmfile == a + SubDaily + c
    requires Free(a + SubDaily + c, GcmToken) && Free(a + SubDaily + c, VarToken)
    requires forall i: nat :: i < |a| ==> !OccursAt(a + SubDaily + c, SubDaily, i)
    requires Free(c, SubDaily)
    requires Free(a + Daily + c, YearToken) && Free(a + Daily + c, ExpToken) && Free(a + Daily + c, EnsToken)
    ensures SstPattern(cfg, year) == a + Daily + c
    ensures multiset(FindSstFile(cfg, year, glob)) == multiset(glob(a + Daily + c))
  {
    var t := a + SubDaily + c;
    ReplaceAllUnchanged(t, GcmToken, cfg.gcmName);
    ReplaceAllUnchanged(t, VarToken, "sst");
    ReplaceAllSplice(a, SubDaily, Daily, c);
    ReplaceAllUnchanged(c, SubDaily, Daily);
    var d := a + Daily + c;
    ReplaceAllUnchanged(d, YearToken, NatToString(year));
    ReplaceAllUnchanged(d, ExpToken, cfg.experiment);
    ReplaceAllUnchanged(d, EnsToken, cfg.ensemble);
  }

  /** A string of digits contains no token that starts with an underscore. */
  lemma DigitsFree(s: string, t: string)
    requires forall i :: 0 <= i < |s| ==> IsDigit(s[i])
    requires |t| > 0 && t[0] == '_'
    ensures Free(s, t)
  {
    forall i: nat | i <= |s|
      ensures !OccursAt(s, t, i)
    {
      if i < |s| && i + |t| <= |s| {
        assert s[i..i + |t|][0] == s[i];
      }
    }
  }

  /** The year is written with `str`, without padding: a template that is only
      the year token yields the decimal year. */
  lemma YearOnlyTemplate(cfg: RunConfig, year: nat, varname: string)
    requires cfg.atmdir + cfg.atmfile == YearToken
    ensures AtmPattern(cfg, year, varname) == NatToString(year)
  {
    var t := YearToken;
    assert Free(t, GcmToken);
    assert Free(t, VarToken);
    ReplaceAllUnchanged(t, GcmToken, cfg.gcmName);
    ReplaceAllUnchanged(t, VarToken, varname);
    var y := NatToString(year);
    ReplaceAllSplice([], YearToken, y, []);
    assert [] + YearToken + [] == t;
    assert ReplaceAll(t, YearToken, y) == y;
    DigitsFree(y, ExpToken);
    DigitsFree(y, EnsToken);
    ReplaceAllUnchanged(y, ExpToken, cfg.experiment);
    ReplaceAllUnchanged(y, EnsToken, cfg.ensemble);
  }

  /** The substitutions run in a fixed order, each over the previous one's
      output: with a template that is only the model token, the pattern is
      the model name put through the four later substitutions, so a model
      name that itself holds a later token is rewritten again. */
  lemma SubstitutionOrder(cfg: RunConfig, year: nat, varname: string)
    requires cfg.atmdir + cfg.atmfile == GcmToken
    ensures AtmPattern(cfg, year, varname) ==
              ReplaceAll(ReplaceAll(ReplaceAll(ReplaceAll(cfg.gcmName, VarToken, varname),
                YearToken, NatToString(year)), ExpToken, cfg.experiment), EnsToken, cfg.ensemble)
  {
    ReplaceAllSplice([], GcmToken, cfg.gcmName, []);
    assert [] + GcmToken + [] == cfg.atmdir + cfg.atmfile;
    assert [] + cfg.gcmName + ReplaceAll([], GcmToken, cfg.gcmName) == cfg.gcmName;
  }

  /** For instance, a model name that is the variable token becomes the
      variable name. */
  lemma SubstitutionOrderExample(cfg: RunConfig, year: nat)
    requires cfg.atmdir == "" && cfg.atmfile == GcmToken && cfg.gcmName == VarToken
    ensures AtmPattern(cfg, year, "ta") == "ta"
  {
    SubstitutionOrder(cfg, year, "ta");
    ReplaceAllSplice([], VarToken, "ta", []);
    assert [] + VarToken + [] == VarToken;
    var t := "ta";
    assert Free(t, YearToken);
    assert Free(t, ExpToken);
    assert Free(t, EnsToken);
    ReplaceAllUnchanged(t, YearToken, NatToString(year));
    ReplaceAllUnchanged(t, ExpToken, cfg.experiment);
    ReplaceAllUnchanged(t, EnsToken, cfg.ensemble);
  }
}

=== FILE: netcdf.dfy ===
/** The grid reader: an archive of self-describing files, each a set of named
    variables with an array and an attribute dictionary, and the two ways the
    core reads them. `ReadNc` is the eager reader of helpers/cmip/io_routines.py,
    which caps the leading (time) axis of arrays of rank above two; `ReadRaw`
    stands for the library reader the vertical-coordinate modules call, which
    returns the stored array whole. */
module NetCdf {
  import opened Results
  import opened Arrays

  /** At most 365 days of 4 samples per day are read from one file. */
  const MaxTimes: nat := 365 * 4

  /** A variable's array, by rank. Ranks above four are not read by the core. */
  datatype NcData =
    | Rank0(x: real)
    | Rank1(v: seq<real>)
    | Rank2(f2: Field2)
    | Rank3(f3: Field3)
    | Rank4(f4: Field4)
  {
    function Rank(): (r: nat) {
      match this
      case Rank0(_) => 0
      case Rank1(_) => 1
      case Rank2(_) => 2
      case Rank3(_) => 3
      case Rank4(_) => 4
    }

    predicate Valid() {
      match this
      case Rank0(_) => true
      case Rank1(_) => true
      case Rank2(f) => f.Valid()
      case Rank3(f) => f.Valid()
      case Rank4(f) => f.Valid()
    }

    /** Length of the leading axis. */
    function Leading(): (r: nat)
      requires Rank() > 0
    {
      match this
      case Rank1(v) => |v|
      case Rank2(f) => f.ny
      case Rank3(f) => |f.steps|
      case Rank4(f) => |f.steps|
    }

    /** The horizontal grid of a spatial field lies around the bounds. */
    predicate Covers(b: Bounds) {
      match this
      case Rank2(f) => b.Within(f.ny, f.nx)
      case Rank3(f) => b.Within(f.ny, f.nx)
      case Rank4(f) => b.Within(f.ny, f.nx)
      case _ => true
    }

    /** `this` is `other` cut short on its leading axis: same rank, same
        trailing shape, and a prefix of its time steps. */
    predicate LeadingPrefixOf(other: NcData) {
      match (this, other)
      case (Rank3(f), Rank3(g)) => f.ny == g.ny && f.nx == g.nx && f.steps <= g.steps
      case (Rank4(f), Rank4(g)) => f.Stackable(g) && f.steps <= g.steps
      case _ => false
    }
  }

  datatype NcVar = NcVar(data: NcData, atts: map<string, string>)

  /** A file: its variables by name. */
  type NcFile = map<string, NcVar>

  /** The archive: files by path. */
  type Store = map<string, NcFile>

  predicate ValidFile(file: NcFile) {
    forall name :: name in file ==> file[name].data.Valid()
  }

  predicate ValidStore(store: Store) {
    forall path :: path in store ==> ValidFile(store[path])
  }

  /** Every file's variable `name`, where present, covers the bounds. */
  predicate VarCovers(store: Store, name: string, b: Bounds) {
    forall path :: path in store && name in store[path] ==> store[path][name].data.Covers(b)
  }

  /** The array an eager read returns: arrays of rank above two keep only
      their first `MaxTimes` entries along the leading axis; others are
      returned whole. */
  function ReadEager(d: NcData): (r: NcData)
    requires d.Valid()
    ensures r.Valid() && r.Rank() == d.Rank()
    ensures d.Rank() <= 2 ==> r == d
    ensures d.Rank() > 2 ==> r.Leading() == Min(d.Leading(), MaxTimes) && r.LeadingPrefixOf(d)
    ensures forall b: Bounds :: d.Covers(b) ==> r.Covers(b)
  {
    if d.Rank() > 2 then
      match d
      case Rank3(f) => Rank3(Head3(f, MaxTimes))
      case Rank4(f) => Rank4(Head4(f, MaxTimes))
    else d
  }

  /** Reading is idempotent: a capped array is not cut again. */
  lemma ReadEagerIdempotent(d: NcData)
    requires d.Valid()
    ensures ReadEager(ReadEager(d)) == ReadEager(d)
  {
    if d.Rank() > 2 {
      var r := ReadEager(d);
      match r
      case Rank3(f) => assert f.steps[..Min(|f.steps|, MaxTimes)] == f.steps;
      case Rank4(f) => assert f.steps[..Min(|f.steps|, MaxTimes)] == f.steps;
    }
  }

  /** Archives no longer than the cap are read whole. */
  lemma ReadEagerShort(d: NcData)
    requires d.Valid() && d.Rank() > 0 && d.Leading() <= MaxTimes
    ensures ReadEager(d) == d
  {
    match d
    case Rank3(f) => assert f.steps[..|f.steps|] == f.steps;
    case Rank4(f) => assert f.steps[..|f.steps|] == f.steps;
    case _ =>
  }

  /** `read_nc(path, name)` in eager mode: a missing file or variable is an
      error; otherwise the capped array and the variable's attributes. */
  function ReadNc(store: Store, path: string, name: string): (r: Result<NcVar>)
    requires ValidStore(store)
    ensures r.Ok? <==> path in store && name in store[path]
    ensures path !in store ==> r == Err(MissingFile(path))
    ensures path in store && name !in store[path] ==> r == Err(MissingVariable(path, name))
    ensures r.Ok? ==> r.value.data == ReadEager(store[path][name].data)
    ensures r.Ok? ==> r.value.atts == store[path][name].atts
  {
    if path !in store then Err(MissingFile(path))
    else if name !in store[path] then Err(MissingVariable(path, name))
    else
      var v := store[path][name];
      Ok(NcVar(ReadEager(v.data), v.atts))
  }

  /** The library reader used by the vertical-coordinate modules: the stored
      array, uncapped. */
  function ReadRaw(path: string, file: NcFile, name: string): (r: Result<NcData>)
    ensures r.Ok? <==> name in file
    ensures r.Ok? ==> r.value == file[name].data
    ensures r.Err? ==> r.error == MissingVariable(path, name)
  {
    if name in file then Ok(file[name].data) else Err(MissingVariable(path, name))
  }
}

=== FILE: results.dfy ===
/** Failure-compatible result type shared by the readers and loaders, and the
    errors a load can abort with. Every fatal error aborts the whole load: there
    is no partial dataset. */
module Results {

  /** Why a read or a load failed. */
  datatype LoadError =
    | MissingFile(path: string)
      // the file cannot be opened
    | MissingVariable(path: string, name: string)
      // the named variable is absent from the file (a KeyError)
    | UnexpectedRank(path: string, name: string, rank: nat)
      // the variable cannot be indexed the way the caller indexes it
    | ShapeMismatch(path: string, name: string)
      // concatenation along time of arrays whose trailing shapes differ
    | LevelMismatch(path: string)
      // hybrid coefficients a and b that cannot be broadcast together

  datatype Option<+T> = None | Some(value: T)

  datatype Result<+T> = Ok(value: T) | Err(error: LoadError) {

    predicate IsFailure() {
      Err?
    }

    function PropagateFailure<U>(): (r: Result<U>)
      requires Err?
    {
      Err(error)
    }

    function Extract(): (r: T)
      requires Ok?
    {
      value
    }
  }
}

=== FILE: sfc_loader.dfy ===
/** The surface loader (`load_sfc`): terrain height and a land mask read from
    the run's orography file, both cut to the spatial subset. A cell is land
    when its land fraction is at least one half. */
module SurfaceLoader {
  import opened Results
  import opened Arrays
  import opened NetCdf
  import opened Config

  datatype SfcDataset = SfcDataset(hgt: Field2, xland: Field2)

  /** A land fraction from one half up marks a land cell. */
  const LandThreshold: real := 0.5

  /** The value written into land cells of a zero-initialised mask. */
  const LandValue: real := 1.0

  /** `np.zeros((ny, nx))`. */
  function Zeros(ny: nat, nx: nat): (r: Field2)
    ensures r.Valid() && r.ny == ny && r.nx == nx
    ensures forall j, i :: 0 <= j < ny && 0 <= i < nx ==> r.rows[j][i] == 0.0
  {
    Field2(ny, nx, seq(ny, j => seq(nx, i => 0.0)))
  }

  /** `base[frac >= threshold] = value`: boolean-mask assignment on two
      fields of the same shape. */
  function MaskAssign(base: Field2, frac: Field2, threshold: real, value: real): (r: Field2)
    requires base.Valid() && frac.Valid() && base.ny == frac.ny && base.nx == frac.nx
    ensures r.Valid() && r.ny == base.ny && r.nx == base.nx
    ensures forall j, i :: 0 <= j < r.ny && 0 <= i < r.nx && frac.rows[j][i] >= threshold ==> r.rows[j][i] == value
    ensures forall j, i :: 0 <= j < r.ny && 0 <= i < r.nx && frac.rows[j][i] < threshold ==> r.rows[j][i] == base.rows[j][i]
  {
    Field2(base.ny, base.nx,
      seq(base.ny, j requires 0 <= j < base.ny =>
        seq(base.nx, i requires 0 <= i < base.nx =>
          if frac.rows[j][i] >= threshold then value else base.rows[j][i])))
  }

  /** The land mask of a land-fraction field: one on land, zero elsewhere. */
  function LandMask(frac: Field2): (r: Field2)
    requires frac.Valid()
    ensures r.Valid() && r.ny == frac.ny && r.nx == frac.nx
    ensures forall j, i :: 0 <= j < r.ny && 0 <= i < r.nx ==> (r.rows[j][i] == 1.0 <==> frac.rows[j][i] >= 0.5)
    ensures forall j, i :: 0 <= j < r.ny && 0 <= i < r.nx ==> (r.rows[j][i] == 0.0 <==> frac.rows[j][i] < 0.5)
  {
    MaskAssign(Zeros(frac.ny, frac.nx), frac, LandThreshold, LandValue)
  }

  /** More land never removes a land cell: the mask is monotone in the land
      fraction. */
  lemma LandMaskMonotone(f: Field2, g: Field2, j: nat, i: nat)
    requires f.Valid() && g.Valid() && f.ny == g.ny && f.nx == g.nx
    requires j < f.ny && i < f.nx && f.rows[j][i] <= g.rows[j][i]
    ensures LandMask(f).rows[j][i] <= LandMask(g).rows[j][i]
  {
  }

  /** The threshold itself is land; anything below it is not. */
  lemma LandMaskThreshold(x: real)
    ensures LandMask(Field2(1, 1, [[x]])).rows[0][0] == if x >= 0.5 then 1.0 else 0.0
  {
  }

  /** `read_nc(path, name).data[ymin:ymax, xmin:xmax]` for a static field. */
  function Read2(store: Store, path: string, name: string, b: Bounds): (r: Result<Field2>)
    requires ValidStore(store) && VarCovers(store, name, b)
    ensures r.Ok? <==> path in store && name in store[path] && store[path][name].data.Rank2?
    ensures r.Ok? ==> r.value.Valid() && r.value.ny == b.Height() && r.value.nx == b.Width()
    ensures r.Ok? ==> forall j, i :: 0 <= j < r.value.ny && 0 <= i < r.value.nx ==>
              r.value.rows[j][i] == store[path][name].data.f2.rows[b.ymin + j][b.xmin + i]
    ensures path !in store ==> r == Err(MissingFile(path))
  {
    var nc :- ReadNc(store, path, name);
    if nc.data.Rank2? then Ok(Subset2(nc.data.f2, b))
    else Err(UnexpectedRank(path, name, nc.data.Rank()))
  }

  /** `load_sfc(time, info)`: terrain height from "orog", then the mask from
      "sftlf", both from the orography file. */
  function LoadSfc(store: Store, cfg: RunConfig): (r: Result<SfcDataset>)
    requires ValidStore(store) && VarCovers(store, "orog", cfg.bounds) && VarCovers(store, "sftlf", cfg.bounds)
    ensures var file := cfg.orogFile;
            r.Ok? <==> file in store && "orog" in store[file] && store[file]["orog"].data.Rank2?
                                     && "sftlf" in store[file] && store[file]["sftlf"].data.Rank2?
    ensures r.Ok? ==> r.value.hgt.Valid() && r.value.xland.Valid()
    ensures r.Ok? ==> r.value.hgt.ny == r.value.xland.ny && r.value.hgt.nx == r.value.xland.nx
    ensures r.Ok? ==>
              var b := cfg.bounds;
              var orog := store[cfg.orogFile]["orog"].data.f2;
              var frac := store[cfg.orogFile]["sftlf"].data.f2;
              && b.ymin + r.value.hgt.ny == b.ymax <= orog.ny && b.xmin + r.value.hgt.nx == b.xmax <= orog.nx
              && b.ymax <= frac.ny && b.xmax <= frac.nx
    ensures r.Ok? ==>
              var b := cfg.bounds;
              var orog := store[cfg.orogFile]["orog"].data.f2;
              forall j, i :: 0 <= j < r.value.hgt.ny && 0 <= i < r.value.hgt.nx ==>
                r.value.hgt.rows[j][i] == orog.rows[b.ymin + j][b.xmin + i]
    ensures r.Ok? ==>
              var b := cfg.bounds;
              var frac := store[cfg.orogFile]["sftlf"].data.f2;
              forall j, i :: 0 <= j < r.value.xland.ny && 0 <= i < r.value.xland.nx ==>
                (r.value.xland.rows[j][i] == 1.0 <==> frac.rows[b.ymin + j][b.xmin + i] >= 0.5)
                && (r.value.xland.rows[j][i] == 0.0 <==> frac.rows[b.ymin + j][b.xmin + i] < 0.5)
    ensures cfg.orogFile !in store ==> r == Err(MissingFile(cfg.orogFile))
  {
    var hgt :- Read2(store, cfg.orogFile, "orog", cfg.bounds);
    var frac :- Read2(store, cfg.orogFile, "sftlf", cfg.bounds);
    Ok(SfcDataset(hgt, LandMask(frac)))
  }
}

=== FILE: strings.dfy ===
/** String operations the file locator relies on: Python's `str.replace`
    (replace every non-overlapping occurrence, scanning left to right), the
    code-point order Python uses to compare and sort strings, and the decimal
    rendering of a year with `str`. */
module Strings {

  // ---------------------------------------------------------------------------
  // Occurrences and replace-all
  // ---------------------------------------------------------------------------

  /** `t` occurs in `s` starting at index `i`. */
  predicate OccursAt(s: string, t: string, i: nat) {
    i + |t| <= |s| && s[i..i + |t|] == t
  }

  /** `t` occurs nowhere in `s`. */
  predicate Free(s: string, t: string) {
    forall i: nat :: i <= |s| ==> !OccursAt(s, t, i)
  }

  lemma FreeTail(s: string, t: string)
    requires |s| > 0 && Free(s, t)
    ensures Free(s[1..], t)
  {
    forall i: nat | i <= |s[1..]|
      ensures !OccursAt(s[1..], t, i)
    {
      assert !OccursAt(s, t, i + 1);
      if i + |t| <= |s[1..]| {
        assert s[1..][i..i + |t|] == s[i + 1..i + 1 + |t|];
      }
    }
  }

  /** Python's `s.replace(token, value)`: scan from the left, replace an
      occurrence of `token` by `value` and resume after it. The tokens
      substituted here are never empty. */
  function ReplaceAll(s: string, token: string, value: string): (r: string)
    requires |token| > 0
    decreases |s|
  {
    if |s| < |token| then s
    else if s[..|token|] == token then value + ReplaceAll(s[|token|..], token, value)
    else [s[0]] + ReplaceAll(s[1..], token, value)
  }

  /** When `token` occurs nowhere, the text is returned unchanged. */
  lemma {:induction false} ReplaceAllUnchanged(s: string, token: string, value: string)
    requires |token| > 0 && Free(s, token)
    ensures ReplaceAll(s, token, value) == s
    decreases |s|
  {
    if |s| >= |token| {
      assert !OccursAt(s, token, 0);
      FreeTail(s, token);
      ReplaceAllUnchanged(s[1..], token, value);
      assert [s[0]] + s[1..] == s;
    }
  }

  /** No occurrence at the front: the first character is copied. */
  lemma ReplaceAllMiss(s: string, token: string, value: string)
    requires |token| > 0 && |s| >= |token| && !OccursAt(s, token, 0)
    ensures ReplaceAll(s, token, value) == [s[0]] + ReplaceAll(s[1..], token, value)
  {
  }

  /** An occurrence at the front becomes `value`. */
  lemma ReplaceAllHit(s: string, token: string, value: string)
    requires |token| > 0 && OccursAt(s, token, 0)
    ensures ReplaceAll(s, token, value) == value + ReplaceAll(s[|token|..], token, value)
  {
  }

  /** The leftmost occurrence is replaced and scanning resumes right after it:
      when `token` does not occur in `a + token` before index `|a|`, the text `a`
      is copied, the occurrence becomes `value`, and the rest is processed on
      its own. Together with `ReplaceAllUnchanged` this characterises
      Python's replace. */
  lemma {:induction false} ReplaceAllSplice(a: string, token: string, value: string, b: string)
    requires |token| > 0
    requires forall i: nat :: i < |a| ==> !OccursAt(a + token + b, token, i)
    ensures ReplaceAll(a + token + b, token, value) == a + value + ReplaceAll(b, token, value)
    decreases |a|
  {
    var s := a + token + b;
    if |a| == 0 {
      assert s == token + b;
      assert OccursAt(s, token, 0);
      ReplaceAllHit(s, token, value);
      assert s[|token|..] == b;
    } else {
      var t := a[1..] + token + b;
      assert s[1..] == t;
      assert !OccursAt(s, token, 0);
      ReplaceAllMiss(s, token, value);
      forall i: nat | i < |a[1..]|
        ensures !OccursAt(t, token, i)
      {
        assert !OccursAt(s, token, i + 1);
        assert t[i..i + |token|] == s[i + 1..i + 1 + |token|];
      }
      ReplaceAllSplice(a[1..], token, value, b);
      var rb := ReplaceAll(b, token, value);
      assert [s[0]] + a[1..] == a;
      assert [s[0]] + (a[1..] + value + rb) == a + value + rb;
    }
  }

  // ---------------------------------------------------------------------------
  // Python string order (code point by code point, a proper prefix is smaller)
  // ---------------------------------------------------------------------------

  predicate StrLe(a: string, b: string) {
    if |a| == 0 then true
    else if |b| == 0 then false
    else if a[0] != b[0] then a[0] < b[0]
    else StrLe(a[1..], b[1..])
  }

  lemma {:induction false} StrLeReflexive(a: string)
    ensures StrLe(a, a)
    decreases |a|
  {
    if |a| > 0 { StrLeReflexive(a[1..]); }
  }

  lemma {:induction false} StrLeTotal(a: string, b: string)
    ensures StrLe(a, b) || StrLe(b, a)
    decreases |a|
  {
    if |a| > 0 && |b| > 0 && a[0] == b[0] { StrLeTotal(a[1..], b[1..]); }
  }

  lemma {:induction false} StrLeAntisymmetric(a: string, b: string)
    requires StrLe(a, b) && StrLe(b, a)
    ensures a == b
    decreases |a|
  {
    if |a| > 0 {
      StrLeAntisymmetric(a[1..], b[1..]);
      assert a == [a[0]] + a[1..];
      assert b == [b[0]] + b[1..];
    }
  }

  lemma {:induction false} StrLeTransitive(a: string, b: string, c: string)
    requires StrLe(a, b) && StrLe(b, c)
    ensures StrLe(a, c)
    decreases |a|
  {
    if |a| > 0 && a[0] == b[0] && b[0] == c[0] {
      StrLeTransitive(a[1..], b[1..], c[1..]);
    }
  }

  // ---------------------------------------------------------------------------
  // Sorting a list of file names (Python's list.sort on strings)
  // ---------------------------------------------------------------------------

  /** Each name is no greater than the next. */
  predicate Sorted(s: seq<string>) {
    forall i :: 0 < i < |s| ==> StrLe(s[i - 1], s[i])
  }

  /** Every earlier name is no greater than every later one. */
  predicate PairwiseSorted(s: seq<string>) {
    forall i, j :: 0 <= i < j < |s| ==> StrLe(s[i], s[j])
  }

  lemma {:induction false} SortedIsPairwise(s: seq<string>)
    requires Sorted(s)
    ensures PairwiseSorted(s)
    decreases |s|
  {
    if |s| > 1 {
      SortedIsPairwise(s[1..]);
      forall j | 0 < j < |s|
        ensures StrLe(s[0], s[j])
      {
        if j > 1 {
          assert StrLe(s[1..][0], s[1..][j - 1]);
          StrLeTransitive(s[0], s[1], s[j]);
        }
      }
      forall i, j | 0 <= i < j < |s|
        ensures StrLe(s[i], s[j])
      {
        if i > 0 { assert StrLe(s[1..][i - 1], s[1..][j - 1]); }
      }
    }
  }

  function Insert(x: string, s: seq<string>): (r: seq<string>)
    requires Sorted(s)
    ensures Sorted(r)
    ensures multiset(r) == multiset(s) + multiset{x}
    ensures |r| == |s| + 1
    ensures r[0] == x || (|s| > 0 && r[0] == s[0])
    decreases |s|
  {
    if |s| == 0 then [x]
    else if StrLe(x, s[0]) then [x] + s
    else
      StrLeTotal(x, s[0]);
      assert s == [s[0]] + s[1..];
      [s[0]] + Insert(x, s[1..])
  }

  /** Insertion sort: the names of `s` in ascending order. */
  function SortStrings(s: seq<string>): (r: seq<string>)
    ensures Sorted(r)
    ensures multiset(r) == multiset(s)
    decreases |s|
  {
    if |s| == 0 then []
    else
      assert s == [s[0]] + s[1..];
      Insert(s[0], SortStrings(s[1..]))
  }

  /** A sorted arrangement of a multiset of names is unique, so the sorted list
      depends only on which names matched, not on the order they were listed
      in. */
  lemma {:induction false} SortedUnique(a: seq<string>, b: seq<string>)
    requires Sorted(a) && Sorted(b)
    requires multiset(a) == multiset(b)
    ensures a == b
    decreases |a|
  {
    if |a| > 0 {
      assert |b| == |multiset(b)| == |multiset(a)| == |a|;
      SortedIsPairwise(a);
      SortedIsPairwise(b);
      assert a[0] in multiset(b);
      var j :| 0 <= j < |b| && b[j] == a[0];
      if j > 0 { assert StrLe(b[0], b[j]); } else { StrLeReflexive(b[0]); }
      assert b[0] in multiset(a);
      var i :| 0 <= i < |a| && a[i] == b[0];
      if i > 0 { assert StrLe(a[0], a[i]); } else { StrLeReflexive(a[0]); }
      StrLeAntisymmetric(a[0], b[0]);
      assert a == [a[0]] + a[1..];
      assert b == [b[0]] + b[1..];
      assert multiset(a[1..]) == multiset(a) - multiset{a[0]};
      assert multiset(b[1..]) == multiset(b) - multiset{b[0]};
      SortedUnique(a[1..], b[1..]);
    }
  }

  // ---------------------------------------------------------------------------
  // Decimal rendering of a year (Python's str on a non-negative int)
  // ---------------------------------------------------------------------------

  predicate IsDigit(c: char) {
    '0' <= c <= '9'
  }

  function DigitChar(d: nat): (c: char)
    requires d < 10
  {
    (('0' as int) + d) as char
  }

  function DigitValue(c: char): (r: nat)
    requires IsDigit(c)
  {
    (c as int) - ('0' as int)
  }

  /** `str(n)`: decimal digits, most significant first, no leading zero. */
  function NatToString(n: nat): (s: string)
    ensures |s| > 0
    ensures forall i :: 0 <= i < |s| ==> IsDigit(s[i])
    ensures |s| > 1 ==> s[0] != '0'
    decreases n
  {
    if n < 10 then [DigitChar(n)]
    else NatToString(n / 10) + [DigitChar(n % 10)]
  }

  /** `int(s)` on a string of decimal digits. */
  function ParseNat(s: string): (r: nat)
    requires forall i :: 0 <= i < |s| ==> IsDigit(s[i])
    decreases |s|
  {
    if |s| == 0 then 0
    else ParseNat(s[..|s| - 1]) * 10 + DigitValue(s[|s| - 1])
  }

  /** Reading the rendered year back gives the year. */
  lemma {:induction false} ParseNatToString(n: nat)
    ensures ParseNat(NatToString(n)) == n
    decreases n
  {
    var s := NatToString(n);
    if n >= 10 {
      assert s[..|s| - 1] == NatToString(n / 10);
      ParseNatToString(n / 10);
    }
  }

  /** Years 1000 to 9999 render with exactly four digits; earlier years with
      fewer (`str` does not pad). */
  lemma {:induction false} YearWidth(n: nat)
    ensures n < 10 ==> |NatToString(n)| == 1
    ensures 10 <= n < 100 ==> |NatToString(n)| == 2
    ensures 100 <= n < 1000 ==> |NatToString(n)| == 3
    ensures 1000 <= n < 10000 ==> |NatToString(n)| == 4
    decreases n
  {
    if n >= 10 { YearWidth(n / 10); }
  }
}

=== FILE: vcoord.dfy ===
/** Vertical-coordinate strategies: one per source-model family, each turning
    the fields a file stores into a (time, level, y, x) pressure field.
    Level-only inputs are broadcast across time, y and x; (time, y, x) inputs
    are broadcast across levels, as numpy's `[na,:,na,na]` and `[:,na,:,:]`
    views do. Arithmetic is exact (real numbers). */
module VerticalCoords {
  import opened Results
  import opened Arrays
  import opened NetCdf

  /** The closed set of model families, chosen by the run configuration. */
  datatype Family = Gfdl | Fgoals | Ccsm | Awi

  /** The inputs one family reads from a file. */
  datatype VCoord =
    | Hybrid(a: seq<real>, b: seq<real>, ps: Field3)
      // gfdl: p = a + b * ps
    | Sigma(ptop: real, sigma: seq<real>, ps: Field3)
      // fgoals: p = ptop + sigma * (ps - ptop)
    | FixedLevel(plev: seq<real>, ps: Field3)
      // ccsm: p = (plev / ps) * ps
    | Direct(pressure: Field4)
      // awi: the stored pressure
  {
    /** Number of model levels. */
    function Levels(): (r: nat) {
      match this
      case Hybrid(a, _, _) => |a|
      case Sigma(_, sigma, _) => |sigma|
      case FixedLevel(plev, _) => |plev|
      case Direct(p) => p.nk
    }

    predicate WellFormed() {
      match this
      case Hybrid(a, b, ps) => |a| == |b| && ps.Valid()
      case Sigma(_, _, ps) => ps.Valid()
      case FixedLevel(_, ps) => ps.Valid() && NonZero(ps)
      case Direct(p) => p.Valid()
    }
  }

  /** No surface-pressure sample is zero. */
  predicate NonZero(ps: Field3) {
    forall n, j, i :: 0 <= n < |ps.steps| && 0 <= j < |ps.steps[n]| && 0 <= i < |ps.steps[n][j]| ==>
      ps.steps[n][j][i] != 0.0
  }

  /** Combine a per-level coefficient with every (time, y, x) sample of `ps`:
      the result at `[n][k][j][i]` is `f(levels[k], ps[n][j][i])`. */
  function Broadcast<L>(levels: seq<L>, ps: Field3, f: (L, real) --> real): (p: Field4)
    requires ps.Valid()
    requires forall k, n, j, i :: 0 <= k < |levels| && 0 <= n < |ps.steps| && 0 <= j < ps.ny && 0 <= i < ps.nx ==>
               f.requires(levels[k], ps.steps[n][j][i])
    ensures p.Valid() && p.nk == |levels| && p.ny == ps.ny && p.nx == ps.nx && |p.steps| == |ps.steps|
    ensures forall n, k, j, i :: p.Has(n, k, j, i) ==> p.steps[n][k][j][i] == f(levels[k], ps.steps[n][j][i])
  {
    Field4(|levels|, ps.ny, ps.nx,
      seq(|ps.steps|, n requires 0 <= n < |ps.steps| =>
        seq(|levels|, k requires 0 <= k < |levels| =>
          seq(ps.ny, j requires 0 <= j < ps.ny =>
            seq(ps.nx, i requires 0 <= i < ps.nx => f(levels[k], ps.steps[n][j][i]))))))
  }

  lemma RatioCancels(pl: real, x: real)
    requires x != 0.0
    ensures (pl / x) * x == pl
  {
  }

  /** gfdl: `a + b * ps` on hybrid levels. */
  function HybridPressure(a: seq<real>, b: seq<real>, ps: Field3): (p: Field4)
    requires |a| == |b| && ps.Valid()
    ensures p.Valid() && p.nk == |a| && p.ny == ps.ny && p.nx == ps.nx && |p.steps| == |ps.steps|
    ensures forall n, k, j, i :: p.Has(n, k, j, i) ==> p.steps[n][k][j][i] == a[k] + b[k] * ps.steps[n][j][i]
  {
    var ab := seq(|a|, k requires 0 <= k < |a| => (a[k], b[k]));
    Broadcast(ab, ps, (c: (real, real), x: real) => c.0 + c.1 * x)
  }

  /** fgoals: `ptop + sigma * (ps - ptop)` on sigma levels. */
  function SigmaPressure(ptop: real, sigma: seq<real>, ps: Field3): (p: Field4)
    requires ps.Valid()
    ensures p.Valid() && p.nk == |sigma| && p.ny == ps.ny && p.nx == ps.nx && |p.steps| == |ps.steps|
    ensures forall n, k, j, i :: p.Has(n, k, j, i) ==> p.steps[n][k][j][i] == ptop + sigma[k] * (ps.steps[n][j][i] - ptop)
  {
    Broadcast(sigma, ps, (s: real, x: real) => ptop + s * (x - ptop))
  }

  /** ccsm: `(plev / ps) * ps`, which is the fixed level itself wherever
      `ps` is non-zero. */
  function FixedLevelPressure(plev: seq<real>, ps: Field3): (p: Field4)
    requires ps.Valid() && NonZero(ps)
    ensures p.Valid() && p.nk == |plev| && p.ny == ps.ny && p.nx == ps.nx && |p.steps| == |ps.steps|
    ensures forall n, k, j, i :: p.Has(n, k, j, i) ==> p.steps[n][k][j][i] == plev[k]
  {
    var p := Broadcast(plev, ps, (pl: real, x: real) requires x != 0.0 => (pl / x) * x);
    assert forall n, k, j, i :: p.Has(n, k, j, i) ==> p.steps[n][k][j][i] == plev[k] by {
      forall n, k, j, i | p.Has(n, k, j, i)
        ensures p.steps[n][k][j][i] == plev[k]
      {
        RatioCancels(plev[k], ps.steps[n][j][i]);
      }
    }
    p
  }

  /** The pressure field each family computes. */
  function Pressure(vc: VCoord): (p: Field4)
    requires vc.WellFormed()
    ensures p.Valid() && p.nk == vc.Levels()
    ensures !vc.Direct? ==> p.ny == vc.ps.ny && p.nx == vc.ps.nx && |p.steps| == |vc.ps.steps|
    ensures vc.Hybrid? ==> forall n, k, j, i :: p.Has(n, k, j, i) ==>
              p.steps[n][k][j][i] == vc.a[k] + vc.b[k] * vc.ps.steps[n][j][i]
    ensures vc.Sigma? ==> forall n, k, j, i :: p.Has(n, k, j, i) ==>
              p.steps[n][k][j][i] == vc.ptop + vc.sigma[k] * (vc.ps.steps[n][j][i] - vc.ptop)
    ensures vc.FixedLevel? ==> forall n, k, j, i :: p.Has(n, k, j, i) ==>
              p.steps[n][k][j][i] == vc.plev[k]
    ensures vc.Direct? ==> p == vc.pressure
  {
    match vc
    case Hybrid(a, b, ps) => HybridPressure(a, b, ps)
    case Sigma(ptop, sigma, ps) => SigmaPressure(ptop, sigma, ps)
    case FixedLevel(plev, ps) => FixedLevelPressure(plev, ps)
    case Direct(pressure) => pressure
  }

  // ---------------------------------------------------------------------------
  // Reading a family's inputs from a file
  // ---------------------------------------------------------------------------

  /** The variables each family reads; nothing else in the file is consulted. */
  function Inputs(family: Family): (r: set<string>) {
    match family
    case Gfdl => {"a", "b", "ps"}
    case Fgoals => {"ptop", "lev", "ps"}
    case Ccsm => {"plev", "ps"}
    case Awi => {"pressure"}
  }

  /** The variable `name` is stored with rank `rank`. */
  predicate HasRank(file: NcFile, name: string, rank: nat) {
    name in file && file[name].data.Rank() == rank
  }

  /** A ccsm file's surface pressure has no zero sample. */
  predicate PsNonZero(file: NcFile) {
    "ps" in file && file["ps"].data.Rank3? ==> NonZero(file["ps"].data.f3)
  }

  /** Everything a family's read needs is present with the rank its indexing
      demands, and gfdl's two coefficient profiles have the same length. */
  predicate Readable(family: Family, file: NcFile) {
    match family
    case Gfdl =>
      HasRank(file, "a", 1) && HasRank(file, "b", 1) && HasRank(file, "ps", 3)
      && |file["a"].data.v| == |file["b"].data.v|
    case Fgoals => HasRank(file, "ptop", 0) && HasRank(file, "lev", 1) && HasRank(file, "ps", 3)
    case Ccsm => HasRank(file, "plev", 1) && HasRank(file, "ps", 3)
    case Awi => HasRank(file, "pressure", 4)
  }

  /** Number of model levels a family's pressure field has: the length of the
      level coefficients it is built from, or the stored field's level axis. */
  function LevelCount(family: Family, file: NcFile): (levels: nat) {
    var name := match family
      case Gfdl => "a"
      case Fgoals => "lev"
      case Ccsm => "plev"
      case Awi => "pressure";
    if name !in file then 0
    else match file[name].data
      case Rank1(v) => |v|
      case Rank4(f) => f.nk
      case _ => 0
  }

  /** Length of the time axis of the field a family's pressure follows. */
  function PressureLength(family: Family, file: NcFile): (r: nat) {
    var name := if family.Awi? then "pressure" else "ps";
    if name in file && file[name].data.Rank() >= 3 then file[name].data.Leading() else 0
  }

  function Read0(path: string, file: NcFile, name: string): (r: Result<real>) {
    var d :- ReadRaw(path, file, name);
    if d.Rank0? then Ok(d.x) else Err(UnexpectedRank(path, name, d.Rank()))
  }

  /** A level profile, viewed as `[na,:,na,na]`. */
  function Read1(path: string, file: NcFile, name: string): (r: Result<seq<real>>) {
    var d :- ReadRaw(path, file, name);
    if d.Rank1? then Ok(d.v) else Err(UnexpectedRank(path, name, d.Rank()))
  }

  /** A (time, y, x) field, viewed as `[:,na,:,:]`. */
  function Read3(path: string, file: NcFile, name: string): (r: Result<Field3>) {
    var d :- ReadRaw(path, file, name);
    if d.Rank3? then Ok(d.f3) else Err(UnexpectedRank(path, name, d.Rank()))
  }

  /** The gfdl module's reads: profiles `a` and `b` and surface pressure `ps`. */
  function ReadHybrid(path: string, file: NcFile): (r: Result<VCoord>)
    requires ValidFile(file)
    ensures r.Ok? <==> Readable(Gfdl, file)
    ensures r.Ok? ==> r.value.WellFormed()
    ensures r.Ok? ==> r.value == Hybrid(file["a"].data.v, file["b"].data.v, file["ps"].data.f3)
  {
    var a :- Read1(path, file, "a");
    var b :- Read1(path, file, "b");
    var ps :- Read3(path, file, "ps");
    if |a| != |b| then Err(LevelMismatch(path)) else Ok(Hybrid(a, b, ps))
  }

  /** The fgoals module's reads: scalar `ptop`, sigma levels `lev` and `ps`. */
  function ReadSigma(path: string, file: NcFile): (r: Result<VCoord>)
    requires ValidFile(file)
    ensures r.Ok? <==> Readable(Fgoals, file)
    ensures r.Ok? ==> r.value.WellFormed()
    ensures r.Ok? ==> r.value == Sigma(file["ptop"].data.x, file["lev"].data.v, file["ps"].data.f3)
  {
    var ptop :- Read0(path, file, "ptop");
    var sigma :- Read1(path, file, "lev");
    var ps :- Read3(path, file, "ps");
    Ok(Sigma(ptop, sigma, ps))
  }

  /** The ccsm module's reads: pressure levels `plev` and `ps`. */
  function ReadFixedLevel(path: string, file: NcFile): (r: Result<VCoord>)
    requires ValidFile(file) && PsNonZero(file)
    ensures r.Ok? <==> Readable(Ccsm, file)
    ensures r.Ok? ==> r.value.WellFormed()
    ensures r.Ok? ==> r.value == FixedLevel(file["plev"].data.v, file["ps"].data.f3)
  {
    var plev :- Read1(path, file, "plev");
    var ps :- Read3(path, file, "ps");
    Ok(FixedLevel(plev, ps))
  }

  /** The awi module's read: the stored 4-d `pressure`. */
  function ReadDirect(path: string, file: NcFile): (r: Result<VCoord>)
    requires ValidFile(file)
    ensures r.Ok? <==> Readable(Awi, file)
    ensures r.Ok? ==> r.value == Direct(file["pressure"].data.f4) && r.value.WellFormed()
  {
    var p :- ReadRaw(path, file, "pressure");
    if p.Rank4? then Ok(Direct(p.f4)) else Err(UnexpectedRank(path, "pressure", p.Rank()))
  }

  /** `vcoord(filename)` of the family's module, up to the point where the
      inputs are in hand. */
  function ReadVCoord(family: Family, path: string, file: NcFile): (r: Result<VCoord>)
    requires ValidFile(file)
    requires family.Ccsm? ==> PsNonZero(file)
    ensures r.Ok? <==> Readable(family, file)
    ensures r.Ok? ==> r.value.WellFormed()
    ensures r.Ok? && family.Gfdl? ==> r.value.Hybrid?
    ensures r.Ok? && family.Fgoals? ==> r.value.Sigma?
    ensures r.Ok? && family.Ccsm? ==> r.value.FixedLevel?
    ensures r.Ok? && family.Awi? ==> r.value == Direct(file["pressure"].data.f4)
    ensures r.Ok? && !family.Awi? ==> r.value.ps == file["ps"].data.f3
    ensures r.Ok? && family.Gfdl? ==> r.value == Hybrid(file["a"].data.v, file["b"].data.v, file["ps"].data.f3)
    ensures r.Ok? && family.Fgoals? ==> r.value == Sigma(file["ptop"].data.x, file["lev"].data.v, file["ps"].data.f3)
    ensures r.Ok? && family.Ccsm? ==> r.value == FixedLevel(file["plev"].data.v, file["ps"].data.f3)
  {
    match family
    case Gfdl => ReadHybrid(path, file)
    case Fgoals => ReadSigma(path, file)
    case Ccsm => ReadFixedLevel(path, file)
    case Awi => ReadDirect(path, file)
  }

  /** `info.read_pressure(path)`: the family's pressure field for one file. */
  function VCoordPressure(family: Family, path: string, file: NcFile): (r: Result<Field4>)
    requires ValidFile(file)
    requires family.Ccsm? ==> PsNonZero(file)
    ensures r.Ok? <==> Readable(family, file)
    ensures r.Ok? ==> r.value.Valid() && |r.value.steps| == PressureLength(family, file)
    ensures r.Ok? ==> r.value.nk == LevelCount(family, file)
    ensures r.Ok? && family.Awi? ==> file["pressure"].data == Rank4(r.value)
    ensures r.Ok? && !family.Awi? ==>
              r.value.ny == file["ps"].data.f3.ny && r.value.nx == file["ps"].data.f3.nx
    ensures r.Ok? && family.Gfdl? ==>
              r.value == HybridPressure(file["a"].data.v, file["b"].data.v, file["ps"].data.f3)
    ensures r.Ok? && family.Fgoals? ==>
              r.value == SigmaPressure(file["ptop"].data.x, file["lev"].data.v, file["ps"].data.f3)
    ensures r.Ok? && family.Ccsm? ==>
              r.value == FixedLevelPressure(file["plev"].data.v, file["ps"].data.f3)
  {
    var vc :- ReadVCoord(family, path, file);
    match vc
    case Hybrid(a, b, ps) => Ok(HybridPressure(a, b, ps))
    case Sigma(ptop, sigma, ps) => Ok(SigmaPressure(ptop, sigma, ps))
    case FixedLevel(plev, ps) => Ok(FixedLevelPressure(plev, ps))
    case Direct(p) => Ok(p)
  }

  // ---------------------------------------------------------------------------
  // Properties of the formulas
  // ---------------------------------------------------------------------------

  /** Files that agree on a family's inputs give the same pressure: no other
      variable is consulted. */
  lemma VCoordFrame(family: Family, path: string, f1: NcFile, f2: NcFile)
    requires ValidFile(f1) && ValidFile(f2)
    requires family.Ccsm? ==> PsNonZero(f1) && PsNonZero(f2)
    requires forall name :: name in Inputs(family) ==>
               (name in f1 <==> name in f2) && (name in f1 ==> f1[name].data == f2[name].data)
    ensures VCoordPressure(family, path, f1) == VCoordPressure(family, path, f2)
  {
    assert ReadVCoord(family, path, f1) == ReadVCoord(family, path, f2) by {
      match family
      case Gfdl =>
        assert Read1(path, f1, "a") == Read1(path, f2, "a");
        assert Read1(path, f1, "b") == Read1(path, f2, "b");
        assert Read3(path, f1, "ps") == Read3(path, f2, "ps");
      case Fgoals =>
        assert Read0(path, f1, "ptop") == Read0(path, f2, "ptop");
        assert Read1(path, f1, "lev") == Read1(path, f2, "lev");
        assert Read3(path, f1, "ps") == Read3(path, f2, "ps");
      case Ccsm =>
        assert Read1(path, f1, "plev") == Read1(path, f2, "plev");
        assert Read3(path, f1, "ps") == Read3(path, f2, "ps");
      case Awi =>
        assert ReadRaw(path, f1, "pressure") == ReadRaw(path, f2, "pressure");
    }
  }

  /** gfdl: a level whose `b` coefficient is zero is the constant `a[k]`. */
  lemma HybridLevelConstant(a: seq<real>, b: seq<real>, ps: Field3, k: nat)
    requires |a| == |b| && ps.Valid() && k < |a| && b[k] == 0.0
    ensures forall n, j, i :: HybridPressure(a, b, ps).Has(n, k, j, i) ==>
              HybridPressure(a, b, ps).steps[n][k][j][i] == a[k]
  {
  }

  /** Scale every surface-pressure sample by `c`. */
  function Scale(ps: Field3, c: real): (r: Field3)
    requires ps.Valid()
    ensures r.Valid() && r.ny == ps.ny && r.nx == ps.nx && |r.steps| == |ps.steps|
    ensures forall n, j, i :: 0 <= n < |r.steps| && 0 <= j < r.ny && 0 <= i < r.nx ==>
              r.steps[n][j][i] == c * ps.steps[n][j][i]
  {
    Field3(ps.ny, ps.nx,
      seq(|ps.steps|, n requires 0 <= n < |ps.steps| =>
        seq(ps.ny, j requires 0 <= j < ps.ny =>
          seq(ps.nx, i requires 0 <= i < ps.nx => c * ps.steps[n][j][i]))))
  }

  lemma AffineScales(a: real, b: real, x: real, c: real)
    ensures (a + b * (c * x)) - a == c * ((a + b * x) - a)
  {
  }

  /** gfdl: `p - a` is linear in surface pressure, sample by sample: scaling
      the surface pressure by `c` scales `p - a` by `c`. */
  lemma HybridLinear(a: seq<real>, b: seq<real>, ps: Field3, c: real, n: nat, k: nat, j: nat, i: nat)
    requires |a| == |b| && ps.Valid() && HybridPressure(a, b, ps).Has(n, k, j, i)
    ensures HybridPressure(a, b, Scale(ps, c)).steps[n][k][j][i] - a[k]
              == c * (HybridPressure(a, b, ps).steps[n][k][j][i] - a[k])
  {
    var x := ps.steps[n][j][i];
    var sps := Scale(ps, c);
    assert sps.steps[n][j][i] == c * x;
    AffineScales(a[k], b[k], x, c);
  }

  /** fgoals: sigma 0 is the model top, sigma 1 is the surface. */
  lemma SigmaEndpoints(ptop: real, sigma: seq<real>, ps: Field3, k: nat)
    requires ps.Valid() && k < |sigma|
    ensures sigma[k] == 0.0 ==> forall n, j, i :: SigmaPressure(ptop, sigma, ps).Has(n, k, j, i) ==>
              SigmaPressure(ptop, sigma, ps).steps[n][k][j][i] == ptop
    ensures sigma[k] == 1.0 ==> forall n, j, i :: SigmaPressure(ptop, sigma, ps).Has(n, k, j, i) ==>
              SigmaPressure(ptop, sigma, ps).steps[n][k][j][i] == ps.steps[n][j][i]
  {
  }

  lemma FractionBetween(ptop: real, s: real, x: real)
    requires 0.0 <= s <= 1.0 && ptop <= x
    ensures ptop <= ptop + s * (x - ptop) <= x
  {
    var d := x - ptop;
    assert (1.0 - s) * d >= 0.0;
  }

  /** fgoals: a sigma level inside [0, 1] lies between the model top and the
      surface wherever the surface is below the top. */
  lemma SigmaBounded(ptop: real, sigma: seq<real>, ps: Field3, k: nat)
    requires ps.Valid() && k < |sigma| && 0.0 <= sigma[k] <= 1.0
    ensures forall n, j, i :: SigmaPressure(ptop, sigma, ps).Has(n, k, j, i) && ptop <= ps.steps[n][j][i] ==>
              ptop <= SigmaPressure(ptop, sigma, ps).steps[n][k][j][i] <= ps.steps[n][j][i]
  {
    var p := SigmaPressure(ptop, sigma, ps);
    forall n, j, i | p.Has(n, k, j, i) && ptop <= ps.steps[n][j][i]
      ensures ptop <= p.steps[n][k][j][i] <= ps.steps[n][j][i]
    {
      FractionBetween(ptop, sigma[k], ps.steps[n][j][i]);
    }
  }

  /** ccsm: with no zero sample, the pressure depends on the surface pressure
      only through its shape, never through its values. */
  lemma FixedLevelIgnoresPs(plev: seq<real>, ps1: Field3, ps2: Field3)
    requires ps1.Valid() && ps2.Valid() && NonZero(ps1) && NonZero(ps2)
    requires ps1.ny == ps2.ny && ps1.nx == ps2.nx && |ps1.steps| == |ps2.steps|
    ensures FixedLevelPressure(plev, ps1) == FixedLevelPressure(plev, ps2)
  {
    var p := FixedLevelPressure(plev, ps1);
    var q := FixedLevelPressure(plev, ps2);
    Field4Equal(p, q);
  }
}
